=== FILE: README.md ===
# Shifa Hospital patient portal — a Dafny model of its data layer and page transactions

The portal is a single-page React client with no server. Everything it knows
lives in five browser-storage entries:
- the patients;
- the doctors;
- the appointments;
- the chat history;
- the signed-in patient.

This project models that store and the repositories built on it. It also models
the rule-based chat assistant and the handlers through which the pages change
the store: sign-in and registration, the chat page, the appointments page, the
doctor profile page and the doctor directory.

The modelling choices:
- **The store.** The store is a datatype with one field per storage entry. Each
  entry is missing, corrupt or holds a parsed value, and a missing or corrupt
  collection reads as empty.
- **The shared id-keyed layer.**
  - `add` is an upsert: it replaces the first record with the same id, or
    appends.
  - `remove` filters records out by id.
  - `find` returns the first record with the id.

  The layer is written once, generically, over an id accessor.
- **Page handlers.** Each handler is a pure function from the store (and its
  inputs) to the new store plus what the page shows.
- **Clocks and ids.** Clock readings, generated ids and the "is this moment in
  the future" comparison are parameters.
- **The chat assistant.** It is a total function of the message and a snapshot
  of the doctors collection. Apart from the doctor summary, its reply texts are
  stood for by short labels.
- **Text.** Lower-casing is ASCII-only. Trimming uses the full ECMAScript
  whitespace set.

Files:
- `wrappers.dfy`: the `Option` type.
- `seqs.dfy`: order-preserving filter, first-match search, counting and de-duplication.
- `text.dfy`: lower-casing, substring search, trimming and decimal digits.
- `records.dfy`: patients, doctors, appointments and chat messages.
- `repository.dfy`: the generic upsert, remove and find over a record sequence.
- `storage.dfy`: the store and the patient, doctor, appointment and chat repositories.
- `seed.dfy`: the sample data loader.
- `responder.dfy`: the chat assistant's reply.
- `auth_page.dfy`: sign-in and registration.
- `chat_page.dfy`: the welcome message and sending a message.
- `appointments_page.dfy`: the patient's list, cancelling and the Upcoming/Past tabs.
- `doctor_detail_page.dfy`: the route lookup, slot choice and booking.
- `directory_page.dfy`: the search filters and the specialization options.

## Model

| member | source | states |
|---|---|---|
| Seqs.Filter | src/lib/storage.ts:104-108 | Every kept element satisfies the test, and the result is an order-preserving subsequence of the input. |
| Seqs.FilterMember | src/lib/storage.ts:163-170 | A value is in the filtered sequence exactly when it is in the input and passes the test. |
| Seqs.FilterMultiset | src/lib/storage.ts:104-108 | Filtering adds nothing. Every element that passes is kept as many times as it occurs. |
| Seqs.FilterPartition | src/pages/Appointments.tsx:121-122 | A test and its negation split a sequence into two parts. Their lengths sum to the whole, and so do their multisets. |
| Seqs.FindFirst | src/lib/storage.ts:93 | `findIndex`: none exactly when no element passes, otherwise the first position that passes. |
| Seqs.UniqueFacts | src/pages/DoctorDirectory.tsx:45 | De-duplication gives distinct elements with the same members as the input, in order of first occurrence: de-duplicating any prefix of the input gives a prefix of the result. |
| Text.Lower | src/pages/Chatbot.tsx:71 | The same length, with each character lower-cased position by position. |
| Text.LowerFacts | src/lib/storage.ts:149-150 | The result of `toLowerCase` has no upper-case letters. Lower-case text is left as it is, and lower-casing twice changes nothing more. |
| Text.ContainsIff | src/pages/Chatbot.tsx:74 | `includes` holds exactly when the word occurs at some position. |
| Text.Trim | src/pages/Chatbot.tsx:179 | `trim` gives text no longer than the input that is empty or starts and ends with a non-whitespace character. |
| Text.TrimSlice | src/pages/Chatbot.tsx:184 | The trimmed text is a slice of the input with only whitespace before and after it. Together with `Text.Trim`, exactly the surrounding whitespace is removed. |
| Text.BlankIff | src/pages/Chatbot.tsx:179 | Text trims to empty exactly when every character is whitespace. |
| Repository.Upsert | src/lib/storage.ts:91-102 | With the id absent, the item is appended. With the id present, the first record with that id is replaced in place. |
| Repository.UpsertPresent | src/lib/storage.ts:94-97 | Replacing keeps the length, and a first record with that id exists. |
| Repository.UpsertAbsent | src/lib/storage.ts:97-98 | Appending grows the collection by one, leaves the prefix untouched and puts the item last. |
| Repository.UpsertIdempotent | src/lib/storage.ts:91-102 | Adding the same record twice is the same as adding it once. |
| Repository.UpsertExisting | src/lib/storage.ts:91-102 | Re-adding the record that is already first with its id is a no-op. |
| Repository.UpsertDistinct | src/lib/storage.ts:91-102 | A collection with distinct ids keeps distinct ids after an add. |
| Repository.UpsertTwoFresh | src/lib/storage.ts:97-98 | Two adds under fresh, different ids append both, in order. |
| Repository.FindAfterUpsert | src/lib/storage.ts:91-113 | After an add, `find` of the item's id returns the item. |
| Repository.FindOtherAfterUpsert | src/lib/storage.ts:91-113 | After an add, `find` of any other id returns what it returned before. |
| Repository.Remove | src/lib/storage.ts:104-108 | No record with the id remains. The rest keep their order and multiplicities. |
| Repository.RemoveAbsent | src/lib/storage.ts:104-108 | Removing an absent id changes nothing. |
| Repository.RemoveFacts | src/lib/storage.ts:104-108 | After removing an id, `find` of that id fails. Distinct ids stay distinct. |
| Repository.Find | src/lib/storage.ts:110-113 | None exactly when no record has the id, otherwise the first record with it. |
| Storage.AddTo | src/lib/storage.ts:91-102 | A key-level add stores the upsert of what the entry read as. Afterwards the entry finds the item by its id, and every other id finds what it found before. |
| Storage.AddToUnreadable | src/lib/storage.ts:74-81 | Adding to a missing or corrupt entry leaves exactly the one item. |
| Storage.RemoveFrom | src/lib/storage.ts:104-108 | After a key-level remove, the id is gone and the rest is a subsequence of what was there. Every record with another id is kept as many times as before. |
| Storage.FindIn | src/lib/storage.ts:110-113 | A missing or corrupt entry finds nothing. Otherwise the result is none exactly when no record has the id, or else the first record with it. |
| Storage.AddPatient | src/lib/storage.ts:119 | Upserts into the patients and leaves every other entry as it was. |
| Storage.FindByEmail | src/lib/storage.ts:120-123 | None exactly when no patient has that exact email. Otherwise the result is a stored patient, the first with it. |
| Storage.SetCurrent | src/lib/storage.ts:132-138 | Reading the session entry afterwards gives what was set, and none after clearing. No other entry changes. |
| Storage.GetCurrent | src/lib/storage.ts:124-131 | Nobody is signed in exactly when the session entry is missing or unreadable. Otherwise the session patient is the stored record. |
| Storage.AddDoctor | src/lib/storage.ts:143 | Upserts into the doctors and leaves every other entry as it was. |
| Storage.FindDoctor | src/lib/storage.ts:144 | None exactly when no doctor has the id. Otherwise the result is the first stored doctor with that id. |
| Storage.Search | src/lib/storage.ts:145-157 | An order-preserving subsequence of the doctors, as long as the number of matching doctors. It keeps every doctor, and only those, that match the case-insensitive query and the optional exact specialization. |
| Storage.SearchUnfiltered | src/lib/storage.ts:145-157 | An empty query with an absent or empty specialization returns every doctor. |
| Storage.SearchBySpecialization | src/lib/storage.ts:152-153 | With an empty query, a doctor is listed exactly when their specialization equals the filter. |
| Storage.SearchIgnoresQueryCase | src/lib/storage.ts:149-150 | A query and its lower-case form select the same doctors. |
| Storage.AddAppointment | src/lib/storage.ts:162 | Upserts into the appointments and leaves every other entry as it was. |
| Storage.ByPatient | src/lib/storage.ts:163-166 | Exactly the patient's stored appointments, in storage order, as many as the count of matching records. |
| Storage.ByDoctor | src/lib/storage.ts:167-170 | Exactly the doctor's stored appointments, in storage order, as many as the count of matching records. |
| Storage.History | src/lib/storage.ts:174-179 | An absent or empty id gives the whole history. Any other id gives exactly the messages tagged with it, in order, each as often as it is stored. |
| Storage.AddMessage | src/lib/storage.ts:180 | Upserts into the chat history and leaves every other entry as it was. |
| Storage.ClearHistory | src/lib/storage.ts:181 | Afterwards every patient's history, and the whole history, is empty. |
| Seed.InitializeDummyData | src/lib/storage.ts:185-295 | If the doctors are non-empty, nothing changes. Otherwise there are four doctors, one patient, and empty appointments and chat. The session entry is kept. |
| Seed.SeedIdempotent | src/lib/storage.ts:187 | A second seeding changes nothing. |
| Seed.SeedDoctorsShape | src/lib/storage.ts:190-268 | The sample doctors have distinct ids, and three of them are available. |
| Seed.SeedPatientFindable | src/lib/storage.ts:270-292 | After seeding an empty store, the sample patient is found by their email. |
| Responder.MentionsAnyIff | src/pages/Chatbot.tsx:74 | A rule fires exactly when one of its keywords occurs in the text. |
| Responder.FirstFiring | src/pages/Chatbot.tsx:71-165 | None exactly when no rule fires on the lower-cased text, otherwise the first rule that fires. |
| Responder.Classify | src/pages/Chatbot.tsx:71-165 | No intent exactly when no rule keyword occurs in the lower-cased message. Otherwise the intent is that of the first rule whose keyword occurs. |
| Responder.ClassifyAgreesWithCascade | src/pages/Chatbot.tsx:74-165 | The ordered rule table selects the same reply as the source's chain of `includes` tests. |
| Responder.EarlierRuleWins | src/pages/Chatbot.tsx:74-165 | Once a rule fires, no later rule's reply is chosen. |
| Responder.EmergencyWordWins | src/pages/Chatbot.tsx:74-83 | Any message containing "emergency", in any letter case, gets the emergency reply, whatever else it mentions. |
| Responder.NoKeywordFallback | src/pages/Chatbot.tsx:167-175 | A message containing no keyword gets the fallback reply. |
| Responder.EmptyInputFallback | src/pages/Chatbot.tsx:167-175 | The empty message gets the fallback reply. |
| Responder.RespondIgnoresCase | src/pages/Chatbot.tsx:71 | A message and its lower-case form get the same reply. |
| Responder.OnlyDoctorReplyReadsSnapshot | src/pages/Chatbot.tsx:75-175 | Apart from the doctor reply, the reply is the same for any two doctor snapshots. |
| Responder.Summarize | src/pages/Chatbot.tsx:98-104 | The doctor reply reports the snapshot's size and lists at most its first three doctors, in order. It also reports the number whose status is available. |
| Responder.Respond | src/pages/Chatbot.tsx:70-176 | The fallback reply is given exactly when no rule fires. When the doctor rule decides, the reply is the summary of the snapshot. |
| Responder.ReplyToInjective | src/pages/Chatbot.tsx:74-175 | The eight possible outcomes (seven rules and the fallback) give eight different replies, whatever the doctor snapshots. |
| Responder.RepliesIdentifyIntent | src/pages/Chatbot.tsx:70-176 | Two messages that different rules decide never get the same reply. |
| Responder.DoctorReplyOpens | src/pages/Chatbot.tsx:100 | The doctor reply opens with the doctor emoji, which no other reply starts with. |
| AuthPage.Login | src/pages/PatientAuth.tsx:34-62 | An empty email is refused with nothing changed, and an unknown email is refused with nothing changed. Otherwise the first patient with that email becomes the session patient, and only the session entry changes. |
| AuthPage.NewPatient | src/pages/PatientAuth.tsx:89-106 | The new record copies the form's fields. Its medical history, allergies and medications are empty, it has no last visit, and it carries the given id and registration time. |
| AuthPage.Register | src/pages/PatientAuth.tsx:64-117 | An incomplete form, or an email already registered, writes nothing. Otherwise the new patient is upserted and becomes the session patient, and nothing else changes. |
| AuthPage.RegisterAppends | src/pages/PatientAuth.tsx:89-108 | Under a fresh id, registration appends exactly one patient. |
| AuthPage.RegisterThenFind | src/pages/PatientAuth.tsx:46-109 | After registering, looking up the email finds the new patient, and signing in with it succeeds. |
| AuthPage.RegisterKeepsEmailsDistinct | src/pages/PatientAuth.tsx:79-87 | Patients with distinct emails keep distinct emails after any registration. |
| Responder.SameIntentSameReply | src/pages/Chatbot.tsx:75-175 | Every reply other than the doctor summary is a constant. Two messages decided by the same non-doctor rule, or by no rule, get the same reply, whatever the doctor snapshots. |
| ChatPage.OpenChat | src/pages/Chatbot.tsx:29-60 | Without a patient, or with a non-empty history, nothing is written. An empty history gets the welcome message. Afterwards the patient's history is non-empty. |
| ChatPage.WelcomeOnlyOnce | src/pages/Chatbot.tsx:39-59 | Opening the chat a second time writes nothing more. |
| ChatPage.TaggedMessageInHistory | src/lib/storage.ts:174-179 | A stored message tagged with a patient is in that patient's history. |
| ChatPage.Send | src/pages/Chatbot.tsx:178-208 | Blank input or no patient sends and stores nothing. Otherwise two records are upserted in order: the trimmed user message tagged with the patient, then the bot reply to that text, also tagged. Only the chat history changes. |
| ChatPage.QuestionNotBlank | src/pages/Chatbot.tsx:179-184 | The stored user message is non-empty and neither starts nor ends with whitespace. It is the typed text with only surrounding whitespace cut away. |
| ChatPage.SendAppendsExchange | src/pages/Chatbot.tsx:181-206 | With fresh ids, the history gains exactly the question and then the answer, both tagged with the patient. |
| ChatPage.SendExtendsPatientHistory | src/pages/Chatbot.tsx:178-208 | With fresh ids, the patient's own history gains the question and then the answer. |
| ChatPage.HistoryGrows | src/lib/storage.ts:174-179 | Appending messages tagged with a patient appends them to that patient's history. |
| AppointmentsPage.Load | src/pages/Appointments.tsx:41-48 | One entry per stored appointment of the patient, in storage order. Each entry equals the stored record apart from `doctor`, which is the lookup of its doctor id and may be absent. |
| AppointmentsPage.AttachDoctors | src/pages/Appointments.tsx:45-48 | The join keeps the list length, and each entry gains the lookup of its own doctor id. |
| AppointmentsPage.LoadExactly | src/pages/Appointments.tsx:41-48 | The list holds every stored appointment of the patient with its doctor attached, and nothing else. |
| AppointmentsPage.CancelledCopy | src/pages/Appointments.tsx:64 | The copy is cancelled and equal to the original in every other field, the attached doctor included. |
| AppointmentsPage.Cancel | src/pages/Appointments.tsx:61-78 | An id the list does not show changes nothing. Otherwise the first shown entry with it is written back cancelled and the list is reloaded. Only the appointments entry of the store changes. |
| AppointmentsPage.LoadedIsStored | src/pages/Appointments.tsx:41-48 | Each list entry has a stored record with the same id, owner and status. |
| AppointmentsPage.CancelRewritesOne | src/pages/Appointments.tsx:64-65 | Cancelling a shown id that is stored rewrites only the first stored record with it, as cancelled. The length and all other positions are unchanged. |
| AppointmentsPage.CancelMovesToPast | src/pages/Appointments.tsx:61-122 | Under distinct ids, a stored appointment of the signed-in patient is on their list. Cancelling it keeps the list's length, the reloaded list shows it cancelled, and it is on no Upcoming tab. |
| AppointmentsPage.LoadShowsStored | src/pages/Appointments.tsx:41-48 | Under distinct ids, a stored record of the patient is on their list, with its status. |
| AppointmentsPage.NotScheduledNotUpcoming | src/pages/Appointments.tsx:116-121 | An id none of whose entries is scheduled is on no Upcoming tab. |
| AppointmentsPage.IsUpcoming | src/pages/Appointments.tsx:116-119 | A completed or cancelled appointment is never upcoming, whatever the clock. A scheduled one is upcoming exactly when its date and time lie in the future. |
| AppointmentsPage.Upcoming | src/pages/Appointments.tsx:116-121 | The Upcoming tab keeps only scheduled, future appointments, in list order. |
| AppointmentsPage.Past | src/pages/Appointments.tsx:122 | The Past tab keeps only appointments that are not upcoming, in list order. |
| AppointmentsPage.SplitPartitions | src/pages/Appointments.tsx:121-122 | Every entry is on exactly one tab, and the tabs' lengths and multisets add up to the list. |
| AppointmentsPage.NotScheduledIsPast | src/pages/Appointments.tsx:116-122 | A completed or cancelled appointment is on the Past tab and not on the Upcoming tab, whatever its date. |
| DoctorDetailPage.Open | src/pages/DoctorDetail.tsx:32-46 | Without a session patient, the page redirects to sign-in. With no id, no doctor is shown. An id that no doctor has sends the patient back to the directory. Otherwise the first stored doctor with that id, the one `findById` returns, is shown. |
| DoctorDetailPage.NewAppointment | src/pages/DoctorDetail.tsx:60-69 | The booked record is a scheduled consultation with the clock-derived id, the session patient, the doctor, the chosen day and slot, and empty symptoms. It has no notes and no attached doctor. |
| DoctorDetailPage.Clicks | src/pages/DoctorDetail.tsx:276-288 | After a series of clicks, the choice is unchanged, or is a slot the doctor offers that was chosen while a day was set and the doctor was available. When the last click is on an offered slot of an available doctor with a day set, that slot is the choice. |
| DoctorDetailPage.ClicksSelectOfferedSlot | src/pages/DoctorDetail.tsx:280-286 | After any sequence of clicks, the chosen slot is empty or one the doctor offers. |
| DoctorDetailPage.UnavailableIgnoresClicks | src/pages/DoctorDetail.tsx:286 | For a busy or offline doctor, no click changes the choice. |
| DoctorDetailPage.Book | src/pages/DoctorDetail.tsx:49-79 | Booking succeeds exactly when there are a session patient, a doctor, a day and a slot. Otherwise nothing is written. A booking stores a scheduled consultation for that patient, doctor, day and slot, which its id then finds. Only the appointments entry changes. |
| DoctorDetailPage.BookFreshAppends | src/pages/DoctorDetail.tsx:71 | Under a fresh id, booking appends the record to the collection and to the patient's appointments. |
| DoctorDetailPage.DoubleBooking | src/pages/DoctorDetail.tsx:60-71 | Two bookings of the same doctor, day and slot under fresh ids are both stored. |
| DoctorDetailPage.SameInstantOverwrites | src/pages/DoctorDetail.tsx:60-71 | Two bookings at the same clock reading share an id, so the collection grows by one, not two. |
| DoctorDetailPage.EnabledBookingSucceeds | src/pages/DoctorDetail.tsx:301-305 | Pressing an enabled Book button while signed in always books, at a slot the doctor offers. |
| DoctorDetailPage.BookEnabled | src/pages/DoctorDetail.tsx:304 | The button is enabled only for an available doctor with a day and a slot chosen. What that promises is stated by `DoctorDetailPage.EnabledBookingSucceeds` and `DoctorDetailPage.UnavailableNeverEnabled`. |
| DoctorDetailPage.UnavailableNeverEnabled | src/pages/DoctorDetail.tsx:304 | A busy or offline doctor's Book button is never enabled. |
| DirectoryPage.SpecializationFilter | src/pages/DoctorDirectory.tsx:40 | Handing the mapped drop-down value to the search lets every doctor through when the choice is "all" or empty, and otherwise only doctors of exactly that specialization. |
| DirectoryPage.Visible | src/pages/DoctorDirectory.tsx:39-43 | The listed doctors are a subsequence of the stored ones, as many as match. A doctor is listed exactly when they match the query and either the selection is "all" or empty or it equals their specialization. |
| DirectoryPage.ClearedShowsAll | src/pages/DoctorDirectory.tsx:191-194 | After Clear Filters every stored doctor is listed, in storage order. |
| DirectoryPage.AllMeansNoFilter | src/pages/DoctorDirectory.tsx:40-41 | Selecting "all" lists what a search with no filter lists. |
| DirectoryPage.ClearFilters | src/pages/DoctorDirectory.tsx:191-194 | Clear Filters empties the search box and sets the drop-down to a value that filters nothing. |
| DirectoryPage.Specializations | src/pages/DoctorDirectory.tsx:45 | The options are the distinct specializations in order of first appearance. Each is some doctor's specialization, and every doctor's specialization is an option. |
| DirectoryPage.EveryOptionListsADoctor | src/pages/DoctorDirectory.tsx:39-45 | With the search box empty, choosing any option lists at least one doctor. |

## Left out

- Browser storage and JSON:
  - Writes always succeed. A write the browser refuses is not modelled. The collection writes log such a failure and drop it. Setting or clearing the signed-in patient does not catch it, so the exception reaches the sign-in and registration handlers.
  - Parsing is reduced to an entry being missing, corrupt or stored.
- Clock and randomness:
  - Message, patient and appointment ids, timestamps and the registration time are parameters. The booking id is modelled as "apt-" followed by the decimal clock reading.
  - The calendar day is a parameter, and so is whether "date time" lies in the future.
  - The stored date is the UTC date (`YYYY-MM-DD`) of the selected `Date`. That is the local midnight of a clicked day, or the moment the page opened when no day was clicked. East of UTC a clicked day is stored as the day before. West of UTC, late in the day, the default is stored as tomorrow. The model takes the stored text as given and does not model time zones.
  - The random one-to-two-second delay before the reply is not modelled. The reply is computed and stored straight after the question, so other writes during the delay are not interleaved.
- AppointmentsPage.SplitPartitions: the partition is proved for one clock reading shared by both tabs. The source reads the clock afresh for every entry on each tab. A scheduled appointment whose time passes between the Upcoming read and the Past read is shown on both tabs, or, in the opposite order, on neither.
- AppointmentsPage.Load: the descending sort by parsed date and time is not modelled. Free-form date parsing is not expressible, so the list keeps storage order. `Cancel` looks up the first shown entry with the id, which is the same entry whenever ids are distinct.
- Responder.Respond: the seven replies other than the doctor summary are distinct short labels rather than the exact multi-line texts with emoji. Which reply is chosen is modelled exactly. The doctor summary keeps its emoji opening, its lines and its closing question.
- Responder.Respond: the doctor line leaves out the rating, because number-to-text formatting is not modelled.
- Text.Lower: only ASCII letters are lower-cased. Non-ASCII case mappings, such as the Kelvin sign, are not modelled, so a few non-ASCII queries could match differently.
- ChatPage.OpenChat: the welcome message keeps its greeting and its closing question. The list of what the assistant can help with is dropped.
- DoctorDetailPage.ClickSlot: the calendar's rule against past days is not modelled, because that rule reads the clock.
- Presentation:
  - React state and effects, routing, redirects (modelled only as the view a page settles on), toasts, colours and badges, and number and date formatting are not modelled.
  - Sign-out in the navigation bar is just clearing the session entry (`Storage.SetCurrent` with none).
- Other pages are not part of this model:
  - the admin panel (data export, clearing all storage);
  - the dashboard (clock-dependent counts);
  - the landing page, which only calls the seed loader;
  - the application shell.
- Seed contents: names, bios and slots matter only through the facts stated in `Seed.SeedDoctorsShape` and `Seed.SeedPatientFindable`. The bios are shortened.

=== FILE: appointments_page.dfy ===
/**
 * The "My Appointments" page: the signed-in patient's appointments with their
 * doctors attached, cancelling one of them, and the split of the list into the
 * Upcoming and Past tabs. The clock is a parameter: `afterNow(date, time)`
 * says whether the moment written as "date time" lies after the present one.
 */
module AppointmentsPage {
  import opened Wrappers
  import opened Seqs
  import opened Records
  import opened Storage
  import Repository

  /** One list entry: the stored appointment with `doctor` set to the lookup of its doctor id. */
  function WithDoctor(st: Store, a: Appointment): Appointment {
    a.(doctor := FindDoctor(st, a.doctorId))
  }

  /** `loadAppointments`: the patient's stored appointments in storage order, each with its doctor. */
  function Load(st: Store, patientId: string): (r: seq<Appointment>)
    ensures |r| == |ByPatient(st, patientId)|
    ensures forall i :: 0 <= i < |r| ==> r[i].(doctor := None) == ByPatient(st, patientId)[i].(doctor := None)
    ensures forall i :: 0 <= i < |r| ==> r[i].patientId == patientId && r[i].doctor == FindDoctor(st, r[i].doctorId)
  {
    AttachDoctors(st, ByPatient(st, patientId))
  }

  /** `appointments.map(appointment => ({ ...appointment, doctor: findById(...) }))`. */
  function AttachDoctors(st: Store, s: seq<Appointment>): (r: seq<Appointment>)
    ensures |r| == |s|
    ensures forall i :: 0 <= i < |s| ==> r[i] == WithDoctor(st, s[i])
    decreases |s|
  {
    if |s| == 0 then [] else [WithDoctor(st, s[0])] + AttachDoctors(st, s[1..])
  }

  /** The list shows every stored appointment of the patient, and nothing else, with its doctor. */
  lemma LoadExactly(st: Store, patientId: string)
    ensures forall a :: a in Appointments(st) && a.patientId == patientId ==> WithDoctor(st, a) in Load(st, patientId)
    ensures forall x :: x in Load(st, patientId) ==>
              exists a :: a in Appointments(st) && a.patientId == patientId && x == WithDoctor(st, a)
  {
    var mine := ByPatient(st, patientId);
    var r := Load(st, patientId);
    forall a | a in Appointments(st) && a.patientId == patientId
      ensures WithDoctor(st, a) in r
    {
      var i :| 0 <= i < |mine| && mine[i] == a;
      assert r[i] == WithDoctor(st, a);
    }
    forall x | x in r
      ensures exists a :: a in Appointments(st) && a.patientId == patientId && x == WithDoctor(st, a)
    {
      var i :| 0 <= i < |r| && r[i] == x;
      assert x == WithDoctor(st, mine[i]);
    }
  }

  /** `{ ...appointment, status: 'cancelled' }`. */
  function CancelledCopy(a: Appointment): (r: Appointment)
    ensures r.status == Cancelled
    ensures r.(status := a.status) == a
  {
    a.(status := Cancelled)
  }

  /** The page state after a cancel click: the store and the list on screen. */
  datatype CancelOutcome = CancelOutcome(store: Store, shown: seq<Appointment>)

  /** Writing back `a` cancelled, then reloading the list when someone is signed in. */
  function CancelEntry(st: Store, shown: seq<Appointment>, a: Appointment): (r: CancelOutcome)
    ensures r.store == AddAppointment(st, CancelledCopy(a))
    ensures GetCurrent(st).Some? ==> r.shown == Load(r.store, GetCurrent(st).value.id)
    ensures GetCurrent(st).None? ==> r.shown == shown
  {
    var st' := AddAppointment(st, CancelledCopy(a));
    match GetCurrent(st')
    case Some(p) => CancelOutcome(st', Load(st', p.id))
    case None => CancelOutcome(st', shown)
  }

  /**
   * `handleCancelAppointment(aptId)` on a page showing `shown`: the first shown
   * entry with that id is written back cancelled (doctor included, as the
   * spread copies it), and the list is reloaded when someone is signed in.
   * An id the list does not show changes nothing.
   */
  function Cancel(st: Store, shown: seq<Appointment>, aptId: string): (r: CancelOutcome)
    ensures !Repository.HasId(shown, AppointmentId, aptId) ==> r == CancelOutcome(st, shown)
    ensures Repository.HasId(shown, AppointmentId, aptId) ==>
              exists k :: Repository.FirstWithId(shown, AppointmentId, aptId, k) && r == CancelEntry(st, shown, shown[k])
    ensures UnchangedExcept(st, r.store, AppointmentsKey)
  {
    match Repository.Find(shown, aptId, AppointmentId)
    case None => CancelOutcome(st, shown)
    case Some(a) => CancelEntry(st, shown, a)
  }

  /** The entry a cancel click on a shown id acts on. */
  lemma CancelTarget(st: Store, shown: seq<Appointment>, aptId: string) returns (k: nat)
    requires Repository.HasId(shown, AppointmentId, aptId)
    ensures Repository.FirstWithId(shown, AppointmentId, aptId, k)
    ensures Cancel(st, shown, aptId) == CancelEntry(st, shown, shown[k])
  {
    k := Repository.IndexOfId(shown, AppointmentId, aptId).value;
  }

  /** An entry of the loaded list has a stored counterpart with the same id, owner and status. */
  lemma LoadedIsStored(st: Store, patientId: string, i: nat)
    requires i < |Load(st, patientId)|
    ensures ByPatient(st, patientId)[i] in Appointments(st)
    ensures ByPatient(st, patientId)[i].id == Load(st, patientId)[i].id
    ensures ByPatient(st, patientId)[i].patientId == patientId
    ensures ByPatient(st, patientId)[i].status == Load(st, patientId)[i].status
    ensures Repository.HasId(Appointments(st), AppointmentId, Load(st, patientId)[i].id)
  {
    var e := Load(st, patientId)[i].(doctor := None);
    assert e == ByPatient(st, patientId)[i].(doctor := None);
    var b := ByPatient(st, patientId)[i];
    var m :| 0 <= m < |Appointments(st)| && Appointments(st)[m] == b;
  }

  /** Writing back a record whose id is stored replaces the first stored record with that id. */
  lemma WriteStored(st: Store, c: Appointment) returns (j: nat)
    requires Repository.HasId(Appointments(st), AppointmentId, c.id)
    ensures Repository.FirstWithId(Appointments(st), AppointmentId, c.id, j)
    ensures Appointments(AddAppointment(st, c)) == Appointments(st)[j := c]
  {
    j := Repository.IndexOfId(Appointments(st), AppointmentId, c.id).value;
  }

  /** The record a cancel click on a loaded entry writes, and the stored record it replaces. */
  lemma CancelWrite(st: Store, patientId: string, k: nat) returns (c: Appointment, j: nat)
    requires DistinctKeys(Appointments(st), AppointmentId)
    requires k < |Appointments(st)| && Appointments(st)[k].patientId == patientId
    ensures var aptId := Appointments(st)[k].id;
            Repository.HasId(Load(st, patientId), AppointmentId, aptId)
    ensures var aptId := Appointments(st)[k].id;
            c.id == aptId && c.patientId == patientId && c.status == Cancelled
    ensures Cancel(st, Load(st, patientId), c.id).store == AddAppointment(st, c)
    ensures GetCurrent(st).Some? ==>
              Cancel(st, Load(st, patientId), c.id).shown == Load(AddAppointment(st, c), GetCurrent(st).value.id)
    ensures Repository.FirstWithId(Appointments(st), AppointmentId, c.id, j)
    ensures Appointments(AddAppointment(st, c)) == Appointments(st)[j := c]
    ensures Appointments(st)[j].patientId == patientId
  {
    var aptId := Appointments(st)[k].id;
    LoadShowsStored(st, patientId, k);
    var shown := Load(st, patientId);
    var k := CancelTarget(st, shown, aptId);
    c := CancelledCopy(shown[k]);
    j := ShownWrite(st, patientId, k);
  }

  /** Writing back the `k`-th loaded entry cancelled replaces the first stored record with its id. */
  lemma ShownWrite(st: Store, patientId: string, k: nat) returns (j: nat)
    requires k < |Load(st, patientId)|
    ensures var c := CancelledCopy(Load(st, patientId)[k]);
            Repository.FirstWithId(Appointments(st), AppointmentId, c.id, j)
            && Appointments(AddAppointment(st, c)) == Appointments(st)[j := c]
    ensures DistinctKeys(Appointments(st), AppointmentId) ==> Appointments(st)[j].patientId == patientId
  {
    LoadedIsStored(st, patientId, k);
    j := WriteStored(st, CancelledCopy(Load(st, patientId)[k]));
    if DistinctKeys(Appointments(st), AppointmentId) {
      // The stored record being replaced is the one the list showed.
      var m :| 0 <= m < |Appointments(st)| && Appointments(st)[m] == ByPatient(st, patientId)[k];
      assert m == j;
    }
  }

  /**
   * Cancelling a shown entry whose id is stored rewrites exactly one stored
   * record, the first with that id, as cancelled; the collection keeps its
   * length. Every entry of the loaded list has its id stored (`LoadedIsStored`).
   */
  lemma CancelRewritesOne(st: Store, shown: seq<Appointment>, aptId: string)
    requires Repository.HasId(shown, AppointmentId, aptId)
    requires Repository.HasId(Appointments(st), AppointmentId, aptId)
    ensures var after := Appointments(Cancel(st, shown, aptId).store);
            |after| == |Appointments(st)|
            && exists j :: Repository.FirstWithId(Appointments(st), AppointmentId, aptId, j)
                           && after[j].status == Cancelled
                           && forall i :: 0 <= i < |after| && i != j ==> after[i] == Appointments(st)[i]
  {
    var k := CancelTarget(st, shown, aptId);
    var c := CancelledCopy(shown[k]);
    var j := WriteStored(st, c);
    var after := Appointments(st)[j := c];
    assert Appointments(Cancel(st, shown, aptId).store) == after;
    assert Repository.FirstWithId(Appointments(st), AppointmentId, aptId, j) && after[j].status == Cancelled;
    assert forall i :: 0 <= i < |after| && i != j ==> after[i] == Appointments(st)[i];
  }

  /**
   * A record stored at `j` under distinct ids and owned by the patient is on the
   * patient's loaded list, and every entry there with its id shows its status.
   */
  lemma LoadShowsStored(st: Store, patientId: string, j: nat)
    requires DistinctKeys(Appointments(st), AppointmentId)
    requires j < |Appointments(st)| && Appointments(st)[j].patientId == patientId
    ensures Repository.HasId(Load(st, patientId), AppointmentId, Appointments(st)[j].id)
    ensures forall i :: 0 <= i < |Load(st, patientId)| && Load(st, patientId)[i].id == Appointments(st)[j].id ==>
              Load(st, patientId)[i].status == Appointments(st)[j].status
  {
    var n := StoredOnList(st, patientId, j);
    forall i | 0 <= i < |Load(st, patientId)| && Load(st, patientId)[i].id == Appointments(st)[j].id
      ensures Load(st, patientId)[i].status == Appointments(st)[j].status
    {
      ShownStatusIsStored(st, patientId, j, i);
    }
  }

  /** A stored record of the patient has an entry on their list. */
  lemma StoredOnList(st: Store, patientId: string, j: nat) returns (n: nat)
    requires j < |Appointments(st)| && Appointments(st)[j].patientId == patientId
    ensures n < |Load(st, patientId)| && Load(st, patientId)[n].id == Appointments(st)[j].id
  {
    var mine := ByPatient(st, patientId);
    n :| 0 <= n < |mine| && mine[n] == Appointments(st)[j];
  }

  /** Under distinct ids, a list entry sharing a stored record's id shows that record's status. */
  lemma ShownStatusIsStored(st: Store, patientId: string, j: nat, i: nat)
    requires DistinctKeys(Appointments(st), AppointmentId)
    requires j < |Appointments(st)|
    requires i < |Load(st, patientId)| && Load(st, patientId)[i].id == Appointments(st)[j].id
    ensures Load(st, patientId)[i].status == Appointments(st)[j].status
  {
    LoadedIsStored(st, patientId, i);
    var q :| 0 <= q < |Appointments(st)| && Appointments(st)[q] == ByPatient(st, patientId)[i];
    assert q == j;
  }

  /** An id all of whose entries are no longer scheduled is on no Upcoming tab. */
  lemma NotScheduledNotUpcoming(shown: seq<Appointment>, aptId: string, afterNow: (string, string) -> bool)
    requires forall i :: 0 <= i < |shown| && shown[i].id == aptId ==> shown[i].status != Scheduled
    ensures !Repository.HasId(Upcoming(shown, afterNow), AppointmentId, aptId)
  {
    var u := Upcoming(shown, afterNow);
    if Repository.HasId(u, AppointmentId, aptId) {
      var i :| 0 <= i < |u| && u[i].id == aptId;
      FilterMember(shown, UpcomingTest(afterNow), u[i]);
      assert false;
    }
  }

  /**
   * With distinct appointment ids, cancelling one of the signed-in patient's
   * stored appointments (the one at `k`) from their list: it was on the list,
   * the list keeps its length, and the reloaded list shows that appointment as
   * cancelled, so it is on no Upcoming tab whatever the clock says.
   */
  lemma CancelMovesToPast(st: Store, p: Patient, k: nat, afterNow: (string, string) -> bool)
    requires DistinctKeys(Appointments(st), AppointmentId)
    requires GetCurrent(st) == Some(p)
    requires k < |Appointments(st)| && Appointments(st)[k].patientId == p.id
    ensures var aptId := Appointments(st)[k].id;
            var r := Cancel(st, Load(st, p.id), aptId);
            Repository.HasId(Load(st, p.id), AppointmentId, aptId)
            && |r.shown| == |Load(st, p.id)|
            && Repository.HasId(r.shown, AppointmentId, aptId)
            && (forall i :: 0 <= i < |r.shown| && r.shown[i].id == aptId ==> r.shown[i].status == Cancelled)
            && !Repository.HasId(Upcoming(r.shown, afterNow), AppointmentId, aptId)
  {
    var aptId := Appointments(st)[k].id;
    var c, j := CancelWrite(st, p.id, k);
    var before := Appointments(st);
    var st' := AddAppointment(st, c);
    CountUpdate(before, j, c, OfPatient(p.id));
    Repository.UpsertDistinct(before, c, AppointmentId);
    assert Appointments(st')[j] == c;
    LoadShowsStored(st', p.id, j);
    var reloaded := Load(st', p.id);
    assert Cancel(st, Load(st, p.id), aptId).shown == reloaded;
    forall i | 0 <= i < |reloaded| && reloaded[i].id == aptId
      ensures reloaded[i].status != Scheduled
    {
      assert reloaded[i].status == c.status;
    }
    NotScheduledNotUpcoming(reloaded, aptId, afterNow);
  }

  /** `isUpcoming`: still scheduled and set for a moment after the present one. */
  predicate IsUpcoming(a: Appointment, afterNow: (string, string) -> bool)
    ensures IsUpcoming(a, afterNow) ==> a.status == Scheduled
    ensures a.status == Scheduled ==> (IsUpcoming(a, afterNow) <==> afterNow(a.date, a.time))
  {
    afterNow(a.date, a.time) && a.status == Scheduled
  }

  function UpcomingTest(afterNow: (string, string) -> bool): Appointment -> bool {
    (a: Appointment) => IsUpcoming(a, afterNow)
  }

  /** The Upcoming tab. */
  function Upcoming(shown: seq<Appointment>, afterNow: (string, string) -> bool): (r: seq<Appointment>)
    ensures forall i :: 0 <= i < |r| ==> IsUpcoming(r[i], afterNow)
    ensures IsSubsequence(r, shown)
  {
    Filter(shown, UpcomingTest(afterNow))
  }

  /** The Past tab: everything not upcoming, cancelled and completed visits included. */
  function Past(shown: seq<Appointment>, afterNow: (string, string) -> bool): (r: seq<Appointment>)
    ensures forall i :: 0 <= i < |r| ==> !IsUpcoming(r[i], afterNow)
    ensures IsSubsequence(r, shown)
  {
    Filter(shown, Not(UpcomingTest(afterNow)))
  }

  /** The two tabs partition the list: every entry is on exactly one of them, as often as it occurs. */
  lemma SplitPartitions(shown: seq<Appointment>, afterNow: (string, string) -> bool)
    ensures |Upcoming(shown, afterNow)| + |Past(shown, afterNow)| == |shown|
    ensures multiset(Upcoming(shown, afterNow)) + multiset(Past(shown, afterNow)) == multiset(shown)
    ensures forall a :: a in Upcoming(shown, afterNow) <==> a in shown && IsUpcoming(a, afterNow)
    ensures forall a :: a in Past(shown, afterNow) <==> a in shown && !IsUpcoming(a, afterNow)
  {
    FilterPartition(shown, UpcomingTest(afterNow));
    forall a
      ensures a in Upcoming(shown, afterNow) <==> a in shown && IsUpcoming(a, afterNow)
      ensures a in Past(shown, afterNow) <==> a in shown && !IsUpcoming(a, afterNow)
    {
      FilterMember(shown, UpcomingTest(afterNow), a);
      FilterMember(shown, Not(UpcomingTest(afterNow)), a);
    }
  }

  /** A completed or cancelled appointment is on the Past tab whatever its date. */
  lemma NotScheduledIsPast(shown: seq<Appointment>, afterNow: (string, string) -> bool, a: Appointment)
    requires a in shown && a.status != Scheduled
    ensures a in Past(shown, afterNow) && a !in Upcoming(shown, afterNow)
  {
    SplitPartitions(shown, afterNow);
  }
}

=== FILE: auth_page.dfy ===
/** The sign-in and registration handlers, as guarded transitions on the store. */
module AuthPage {
  import opened Wrappers
  import opened Seqs
  import opened Records
  import opened Storage
  import Repository

  datatype LoginStatus = EmailRequired | AccountNotFound | SignedIn(patient: Patient)

  datatype LoginOutcome = LoginOutcome(store: Store, status: LoginStatus)

  /**
   * `handleLogin`: an empty email is refused before any lookup; a known email
   * becomes the session; an unknown one changes nothing.
   */
  function Login(st: Store, email: string): (r: LoginOutcome)
    ensures email == "" ==> r == LoginOutcome(st, EmailRequired)
    ensures email != "" && FindByEmail(st, email).None? ==> r == LoginOutcome(st, AccountNotFound)
    ensures r.status.SignedIn? ==>
              r.status.patient.email == email && r.status.patient in Patients(st)
              && GetCurrent(r.store) == Some(r.status.patient)
              && UnchangedExcept(st, r.store, CurrentUserKey)
    ensures email != "" && FindByEmail(st, email).Some? ==> r.status.SignedIn?
    ensures r.status.SignedIn? ==> r.status.patient == FindByEmail(st, email).value
  {
    if email == "" then LoginOutcome(st, EmailRequired)
    else match FindByEmail(st, email)
      case Some(p) => LoginOutcome(SetCurrent(st, Some(p)), SignedIn(p))
      case None => LoginOutcome(st, AccountNotFound)
  }

  /** The registration form; `gender` is absent until one is chosen. */
  datatype RegistrationForm = RegistrationForm(
    name: string,
    email: string,
    phone: string,
    dateOfBirth: string,
    gender: Option<Gender>,
    address: string,
    contactName: string,
    contactPhone: string,
    contactRelation: string)

  /** The fields the form insists on. Address and emergency contact may be empty. */
  predicate IsComplete(f: RegistrationForm) {
    f.name != "" && f.email != "" && f.phone != "" && f.dateOfBirth != "" && f.gender.Some?
  }

  datatype RegisterStatus = MissingInformation | AccountExists | Registered(patient: Patient)

  datatype RegisterOutcome = RegisterOutcome(store: Store, status: RegisterStatus)

  /** The patient record a complete form produces, with empty medical lists and no last visit. */
  function NewPatient(f: RegistrationForm, id: string, registeredAt: string): (p: Patient)
    requires f.gender.Some?
    ensures p.id == id && p.name == f.name && p.email == f.email && p.phone == f.phone
    ensures p.dateOfBirth == f.dateOfBirth && p.gender == f.gender.value && p.address == f.address
    ensures p.emergencyContact == EmergencyContact(f.contactName, f.contactPhone, f.contactRelation)
    ensures p.medicalHistory == [] && p.allergies == [] && p.currentMedications == []
    ensures p.lastVisit.None? && p.registrationDate == registeredAt
  {
    Patient(id, f.name, f.email, f.phone, f.dateOfBirth, f.gender.value, f.address,
      EmergencyContact(f.contactName, f.contactPhone, f.contactRelation), [], [], [], None, registeredAt)
  }

  /**
   * `handleRegister`: refuse incomplete forms and known emails without
   * writing; otherwise add the new patient and make it the session.
   * `id` and `registeredAt` stand for the clock-derived values.
   */
  function Register(st: Store, f: RegistrationForm, id: string, registeredAt: string): (r: RegisterOutcome)
    ensures !IsComplete(f) ==> r == RegisterOutcome(st, MissingInformation)
    ensures IsComplete(f) && FindByEmail(st, f.email).Some? ==> r == RegisterOutcome(st, AccountExists)
    ensures IsComplete(f) && FindByEmail(st, f.email).None? ==>
              r.status == Registered(NewPatient(f, id, registeredAt))
              && Patients(r.store) == Repository.Upsert(Patients(st), NewPatient(f, id, registeredAt), PatientId)
              && GetCurrent(r.store) == Some(NewPatient(f, id, registeredAt))
              && r.store.doctors == st.doctors && r.store.appointments == st.appointments
              && r.store.chatHistory == st.chatHistory
  {
    if !IsComplete(f) then RegisterOutcome(st, MissingInformation)
    else if FindByEmail(st, f.email).Some? then RegisterOutcome(st, AccountExists)
    else
      var p := NewPatient(f, id, registeredAt);
      RegisterOutcome(SetCurrent(AddPatient(st, p), Some(p)), Registered(p))
  }

  /** With a fresh id, registration appends exactly one patient. */
  lemma RegisterAppends(st: Store, f: RegistrationForm, id: string, registeredAt: string)
    requires Register(st, f, id, registeredAt).status.Registered?
    requires forall i :: 0 <= i < |Patients(st)| ==> Patients(st)[i].id != id
    ensures Patients(Register(st, f, id, registeredAt).store) == Patients(st) + [NewPatient(f, id, registeredAt)]
  {
  }

  /** After registering, the new email signs in as the new patient. */
  lemma RegisterThenFind(st: Store, f: RegistrationForm, id: string, registeredAt: string)
    requires Register(st, f, id, registeredAt).status.Registered?
    ensures FindByEmail(Register(st, f, id, registeredAt).store, f.email) == Some(NewPatient(f, id, registeredAt))
    ensures Login(Register(st, f, id, registeredAt).store, f.email).status == SignedIn(NewPatient(f, id, registeredAt))
  {
    var p := NewPatient(f, id, registeredAt);
    var ps := Patients(st);
    var rs := Patients(Register(st, f, id, registeredAt).store);
    match Repository.IndexOfId(ps, PatientId, id)
    case Some(j) =>
      assert rs == ps[j := p];
      forall i | 0 <= i < j
        ensures rs[i].email != f.email
      {
        assert rs[i] == ps[i];
      }
      assert rs[j] == p;
    case None =>
      assert rs == ps + [p];
      assert rs[|ps|] == p;
  }

  /** Registration never makes two patients share an email. */
  lemma RegisterKeepsEmailsDistinct(st: Store, f: RegistrationForm, id: string, registeredAt: string)
    requires DistinctKeys(Patients(st), PatientEmail)
    ensures DistinctKeys(Patients(Register(st, f, id, registeredAt).store), PatientEmail)
  {
    var r := Register(st, f, id, registeredAt);
    if r.status.Registered? {
      var p := NewPatient(f, id, registeredAt);
      var ps := Patients(st);
      var rs := Patients(r.store);
      assert forall i :: 0 <= i < |ps| ==> PatientEmail(ps[i]) != PatientEmail(p);
      match Repository.IndexOfId(ps, PatientId, id)
      case Some(j) =>
        assert rs == ps[j := p];
      case None =>
        assert rs == ps + [p];
    }
  }
}

=== FILE: chat_page.dfy ===
/**
 * The chat page's effects on the store: the welcome message written when a
 * patient opens an empty conversation, and the send handler that stores the
 * patient's message and then the responder's reply.
 */
module ChatPage {
  import opened Wrappers
  import opened Seqs
  import opened Text
  import opened Records
  import opened Storage
  import Repository
  import Responder

  /** The greeting addressed to a patient by name, with its closing question; the list of topics is dropped. */
  function WelcomeText(name: string): string {
    "Hello " + name + "! I'm your AI medical assistant. How can I help you today?"
  }

  function WelcomeMessage(p: Patient, id: string, timestamp: string): ChatMessage {
    ChatMessage(id, Bot, WelcomeText(p.name), timestamp, Some(p.id))
  }

  /** A stored message with this patient tag is part of that patient's history. */
  lemma TaggedMessageInHistory(st: Store, m: ChatMessage, pid: string)
    requires m in Messages(st) && m.patientId == Some(pid)
    ensures m in History(st, Some(pid))
  {
  }

  /**
   * The page's first effect. Without a patient nothing is written (the page
   * redirects). With one, a welcome message tagged with the patient is stored
   * exactly when the patient's history reads as empty.
   */
  function OpenChat(st: Store, current: Option<Patient>, id: string, timestamp: string): (r: Store)
    ensures UnchangedExcept(st, r, ChatHistoryKey)
    ensures current.None? ==> r == st
    ensures current.Some? && History(st, Some(current.value.id)) != [] ==> r == st
    ensures current.Some? && History(st, Some(current.value.id)) == [] ==>
              Messages(r) == Repository.Upsert(Messages(st), WelcomeMessage(current.value, id, timestamp), MessageId)
    ensures current.Some? ==> History(r, Some(current.value.id)) != []
  {
    match current
    case None => st
    case Some(p) =>
      if History(st, Some(p.id)) == [] then
        var w := WelcomeMessage(p, id, timestamp);
        var r := AddMessage(st, w);
        Repository.FindAfterUpsert(Messages(st), w, MessageId);
        assert w in Messages(r);
        TaggedMessageInHistory(r, w, p.id);
        r
      else st
  }

  /** Opening the chat a second time writes nothing more. */
  lemma WelcomeOnlyOnce(st: Store, current: Option<Patient>, id1: string, t1: string, id2: string, t2: string)
    ensures OpenChat(OpenChat(st, current, id1, t1), current, id2, t2) == OpenChat(st, current, id1, t1)
  {
  }

  /** The patient's message and the reply it received. */
  datatype Exchange = Exchange(question: ChatMessage, answer: ChatMessage)

  datatype SendOutcome = SendOutcome(store: Store, sent: Option<Exchange>)

  /** The stored form of what the patient typed: trimmed, from the user, tagged with the patient. */
  function Question(p: Patient, input: string, id: string, timestamp: string): ChatMessage {
    ChatMessage(id, User, Trim(input), timestamp, Some(p.id))
  }

  /** The stored reply: from the bot, tagged with the patient, answering the stored question text. */
  function Answer(p: Patient, q: ChatMessage, doctors: seq<Doctor>, id: string, timestamp: string): ChatMessage {
    ChatMessage(id, Bot, Responder.Respond(q.message, doctors), timestamp, Some(p.id))
  }

  /**
   * `handleSendMessage` followed by its delayed reply. Blank input or no
   * patient sends nothing. Otherwise the question is stored first; the reply
   * is computed from the doctors collection as it reads after that write and
   * stored second. Ids and timestamps stand for the clock-derived values.
   */
  function Send(st: Store, current: Option<Patient>, input: string,
                questionId: string, questionTime: string,
                answerId: string, answerTime: string): (r: SendOutcome)
    ensures IsBlank(input) || current.None? ==> r == SendOutcome(st, None)
    ensures !IsBlank(input) && current.Some? ==>
              r.sent.Some?
              && r.sent.value.question == Question(current.value, input, questionId, questionTime)
              && r.sent.value.answer == Answer(current.value, r.sent.value.question, Doctors(st), answerId, answerTime)
              && Messages(r.store) == Repository.Upsert(Repository.Upsert(Messages(st),
                                        r.sent.value.question, MessageId), r.sent.value.answer, MessageId)
    ensures UnchangedExcept(st, r.store, ChatHistoryKey)
  {
    if IsBlank(input) || current.None? then SendOutcome(st, None)
    else
      var p := current.value;
      var q := Question(p, input, questionId, questionTime);
      var afterQuestion := AddMessage(st, q);
      var a := Answer(p, q, Doctors(afterQuestion), answerId, answerTime);
      SendOutcome(AddMessage(afterQuestion, a), Some(Exchange(q, a)))
  }

  /**
   * The stored question is never blank, and it is what the patient typed with
   * exactly its surrounding whitespace removed.
   */
  lemma QuestionNotBlank(p: Patient, input: string, id: string, timestamp: string)
    requires !IsBlank(input)
    ensures var m := Question(p, input, id, timestamp).message;
            m != "" && !IsWhitespace(m[0]) && !IsWhitespace(m[|m| - 1])
    ensures exists i, j :: 0 <= i <= j <= |input| && Question(p, input, id, timestamp).message == input[i..j]
              && (forall k :: 0 <= k < i ==> IsWhitespace(input[k]))
              && (forall k :: j <= k < |input| ==> IsWhitespace(input[k]))
  {
    TrimSlice(input);
  }

  /** The store after a successful send, written as the two additions it performs. */
  lemma SendWrites(st: Store, p: Patient, input: string,
                   questionId: string, questionTime: string,
                   answerId: string, answerTime: string)
    requires !IsBlank(input)
    ensures var q := Question(p, input, questionId, questionTime);
            var a := Answer(p, q, Doctors(st), answerId, answerTime);
            Send(st, Some(p), input, questionId, questionTime, answerId, answerTime)
              == SendOutcome(AddMessage(AddMessage(st, q), a), Some(Exchange(q, a)))
  {
  }

  /**
   * With two fresh ids, sending appends the question and then the answer to
   * the stored history.
   */
  lemma SendAppendsExchange(st: Store, p: Patient, input: string,
                            questionId: string, questionTime: string,
                            answerId: string, answerTime: string)
    requires !IsBlank(input)
    requires questionId != answerId
    requires !Repository.HasId(Messages(st), MessageId, questionId)
    requires !Repository.HasId(Messages(st), MessageId, answerId)
    ensures var r := Send(st, Some(p), input, questionId, questionTime, answerId, answerTime);
            r.sent.Some? && Messages(r.store) == Messages(st) + [r.sent.value.question, r.sent.value.answer]
            && r.sent.value.question.patientId == Some(p.id) && r.sent.value.answer.patientId == Some(p.id)
  {
    var q := Question(p, input, questionId, questionTime);
    var a := Answer(p, q, Doctors(st), answerId, answerTime);
    SendWrites(st, p, input, questionId, questionTime, answerId, answerTime);
    Repository.UpsertTwoFresh(Messages(st), q, a, MessageId);
  }

  /** With two fresh ids, the patient's own history gains the question and then the answer. */
  lemma SendExtendsPatientHistory(st: Store, p: Patient, input: string,
                                  questionId: string, questionTime: string,
                                  answerId: string, answerTime: string)
    requires !IsBlank(input)
    requires questionId != answerId
    requires !Repository.HasId(Messages(st), MessageId, questionId)
    requires !Repository.HasId(Messages(st), MessageId, answerId)
    ensures var r := Send(st, Some(p), input, questionId, questionTime, answerId, answerTime);
            r.sent.Some? && History(r.store, Some(p.id)) == History(st, Some(p.id)) + [r.sent.value.question, r.sent.value.answer]
  {
    var r := Send(st, Some(p), input, questionId, questionTime, answerId, answerTime);
    SendAppendsExchange(st, p, input, questionId, questionTime, answerId, answerTime);
    ExchangeExtendsHistory(st, r.store, p.id, r.sent.value.question, r.sent.value.answer);
  }

  /** Appending a question and answer tagged with a patient appends both to that patient's history. */
  lemma ExchangeExtendsHistory(st: Store, st': Store, pid: string, q: ChatMessage, a: ChatMessage)
    requires Messages(st') == Messages(st) + [q, a]
    requires q.patientId == Some(pid) && a.patientId == Some(pid)
    ensures History(st', Some(pid)) == History(st, Some(pid)) + [q, a]
  {
    HistoryGrows(st, st', pid, [q, a]);
  }

  /** Appending messages tagged with a patient appends them to that patient's history. */
  lemma HistoryGrows(st: Store, st': Store, pid: string, extra: seq<ChatMessage>)
    requires Messages(st') == Messages(st) + extra
    requires forall i :: 0 <= i < |extra| ==> extra[i].patientId == Some(pid)
    ensures History(st', Some(pid)) == History(st, Some(pid)) + extra
  {
    if pid != "" {
      FilterAppend(Messages(st), extra, TaggedWith(Some(pid)));
      FilterAll(extra, TaggedWith(Some(pid)));
    }
  }
}

=== FILE: directory_page.dfy ===
/**
 * The doctor directory page: the search box and the specialization drop-down,
 * whose "all" entry stands for no filter, the list of options built from the
 * doctors' specializations, and the Clear Filters button.
 */
module DirectoryPage {
  import opened Wrappers
  import opened Seqs
  import opened Records
  import opened Storage

  /** The page's two filter inputs. */
  datatype Filters = Filters(query: string, selection: string)

  /** The inputs when the page opens, and after Clear Filters. */
  const Initial := Filters("", "all")

  /** The drop-down value handed to the search: "all" becomes the empty filter. */
  function SpecializationFilter(selection: string): (r: string)
    ensures forall d :: MatchesSpecialization(d, Some(r)) <==>
              selection == "all" || selection == "" || d.specialization == selection
  {
    if selection == "all" then "" else selection
  }

  /** The doctors listed for the current inputs. */
  function Visible(st: Store, f: Filters): (r: seq<Doctor>)
    ensures IsSubsequence(r, Doctors(st))
    ensures forall d :: d in r <==>
              d in Doctors(st) && MatchesQuery(d, f.query)
              && (f.selection == "all" || f.selection == "" || d.specialization == f.selection)
    ensures |r| == Count(Doctors(st), SearchHit(f.query, Some(SpecializationFilter(f.selection))))
  {
    var spec := Some(SpecializationFilter(f.selection));
    forall d
      ensures d in Search(st, f.query, spec) <==> d in Doctors(st) && MatchesQuery(d, f.query) && MatchesSpecialization(d, spec)
    {
      FilterMember(Doctors(st), SearchHit(f.query, spec), d);
    }
    Search(st, f.query, spec)
  }

  /** Clear Filters: both inputs back to their initial values. */
  function ClearFilters(f: Filters): (r: Filters)
    ensures r.query == "" && SpecializationFilter(r.selection) == ""
  {
    Initial
  }

  /** After Clear Filters every stored doctor is listed, in storage order. */
  lemma ClearedShowsAll(st: Store, f: Filters)
    ensures Visible(st, ClearFilters(f)) == Doctors(st)
  {
    SearchUnfiltered(st, Some(""));
  }

  /** Selecting "all" lists exactly what the search with no filter at all lists. */
  lemma AllMeansNoFilter(st: Store, query: string)
    ensures Visible(st, Filters(query, "all")) == Search(st, query, None)
  {
    FilterExtensional(Doctors(st), SearchHit(query, Some("")), SearchHit(query, None));
  }

  /** Each doctor's specialization, in storage order. */
  function SpecializationsOf(ds: seq<Doctor>): (r: seq<string>)
    ensures |r| == |ds| && forall i :: 0 <= i < |ds| ==> r[i] == ds[i].specialization
  {
    seq(|ds|, i requires 0 <= i < |ds| => ds[i].specialization)
  }

  /** The drop-down's options after "all": each specialization once, in order of first appearance. */
  method Specializations(ds: seq<Doctor>) returns (r: seq<string>)
    ensures r == Unique(SpecializationsOf(ds))
    ensures Distinct(r)
    ensures forall s :: s in r <==> exists i :: 0 <= i < |ds| && ds[i].specialization == s
  {
    var names := SpecializationsOf(ds);
    var seen: set<string> := {};
    r := [];
    for i := 0 to |ds|
      invariant r == Unique(names[..i])
      invariant forall s :: s in seen <==> s in r
    {
      assert names[..i + 1][..i] == names[..i];
      if ds[i].specialization !in seen {
        r := r + [ds[i].specialization];
        seen := seen + {ds[i].specialization};
      }
    }
    assert names[..|ds|] == names;
    UniqueFacts(names);
    forall s | s in r
      ensures exists i :: 0 <= i < |ds| && ds[i].specialization == s
    {
      var i :| 0 <= i < |names| && names[i] == s;
    }
  }

  /** With the search box empty, every option of the drop-down lists at least one doctor. */
  lemma EveryOptionListsADoctor(st: Store, s: string)
    requires s in Unique(SpecializationsOf(Doctors(st)))
    ensures Visible(st, Filters("", s)) != []
  {
    var names := SpecializationsOf(Doctors(st));
    UniqueFacts(names);
    var i :| 0 <= i < |names| && names[i] == s;
    assert Doctors(st)[i] in Visible(st, Filters("", s));
  }
}

=== FILE: doctor_detail_page.dfy ===
/**
 * The doctor profile page: resolving the doctor named in the route, choosing a
 * time slot, and booking a consultation. The stored date is passed in as
 * text, or `None` when no day is selected: it is the UTC date (`YYYY-MM-DD`)
 * of the selected `Date`, which is the local midnight of a clicked day, or the
 * moment the page opened when no day was clicked. East of UTC a clicked day
 * is stored as the day before; west of UTC, late in the day, the default is
 * stored as tomorrow. The clock reading used for the new id is passed in as
 * `now`.
 */
module DoctorDetailPage {
  import opened Wrappers
  import opened Seqs
  import opened Text
  import opened Records
  import opened Storage
  import Repository

  /** What the page shows after its mount effect. */
  datatype View =
    | SignInFirst           // redirect to the sign-in page
    | BackToDirectory       // redirect to the directory: no doctor has that id
    | NotFound              // no id in the route: the "Doctor not found" screen
    | Profile(doctor: Doctor)

  /** The mount effect: sign-in check, then the id lookup. An empty route id counts as absent. */
  function Open(st: Store, routeId: Option<string>): (v: View)
    ensures GetCurrent(st).None? <==> v == SignInFirst
    ensures GetCurrent(st).Some? && (routeId.None? || routeId.value == "") ==> v == NotFound
    ensures v.Profile? <==> GetCurrent(st).Some? && routeId.Some? && routeId.value != ""
                            && exists i :: 0 <= i < |Doctors(st)| && Doctors(st)[i].id == routeId.value
    ensures v.Profile? ==> v.doctor.id == routeId.value && v.doctor in Doctors(st)
    ensures v.Profile? ==> FindDoctor(st, routeId.value) == Some(v.doctor)
  {
    if GetCurrent(st).None? then SignInFirst
    else if routeId.None? || routeId.value == "" then NotFound
    else match FindDoctor(st, routeId.value)
      case None => BackToDirectory
      case Some(d) => Profile(d)
  }

  /**
   * A click on a time-slot button. The buttons are shown only once a day is
   * chosen, one per slot the doctor offers, and are disabled unless the doctor
   * is available; a click on an enabled one selects its slot.
   */
  function ClickSlot(d: Doctor, date: Option<string>, current: string, slot: string): string {
    if date.Some? && d.status == Available && slot in d.availability.timeSlots then slot else current
  }

  /**
   * The selection after a series of clicks: unchanged, or a slot the doctor
   * offers, chosen while a day is set and the doctor is available; and when
   * the last click is on an offered slot of an available doctor, that slot.
   */
  function Clicks(d: Doctor, date: Option<string>, current: string, clicked: seq<string>): (r: string)
    ensures r == current || (d.status == Available && date.Some? && r in d.availability.timeSlots)
    ensures |clicked| > 0 && d.status == Available && date.Some? && clicked[|clicked| - 1] in d.availability.timeSlots
            ==> r == clicked[|clicked| - 1]
    decreases |clicked|
  {
    if |clicked| == 0 then current
    else Clicks(d, date, ClickSlot(d, date, current, clicked[0]), clicked[1..])
  }

  /** Starting from no selection, any series of clicks selects nothing or a slot the doctor offers. */
  lemma {:induction false} ClicksSelectOfferedSlot(d: Doctor, date: Option<string>, current: string, clicked: seq<string>)
    requires current == "" || current in d.availability.timeSlots
    ensures var r := Clicks(d, date, current, clicked);
            r == "" || r in d.availability.timeSlots
    decreases |clicked|
  {
    if |clicked| > 0 {
      ClicksSelectOfferedSlot(d, date, ClickSlot(d, date, current, clicked[0]), clicked[1..]);
    }
  }

  /** For a doctor who is not available every click is ignored. */
  lemma {:induction false} UnavailableIgnoresClicks(d: Doctor, date: Option<string>, current: string, clicked: seq<string>)
    requires d.status != Available
    ensures Clicks(d, date, current, clicked) == current
    decreases |clicked|
  {
    if |clicked| > 0 {
      UnavailableIgnoresClicks(d, date, current, clicked[1..]);
    }
  }

  /** `apt-${Date.now()}`. */
  function AppointmentIdAt(now: nat): (r: string)
    ensures |r| > 4 && r[..4] == "apt-"
  {
    "apt-" + NatToString(now)
  }

  /** The record a booking writes: a scheduled consultation with empty symptoms. */
  function NewAppointment(p: Patient, d: Doctor, date: string, slot: string, now: nat): (r: Appointment)
    ensures r.id == AppointmentIdAt(now) && r.patientId == p.id && r.doctorId == d.id
    ensures r.date == date && r.time == slot && r.kind == Consultation && r.status == Scheduled
    ensures r.symptoms == Some("") && r.notes.None? && r.doctor.None?
  {
    Appointment(AppointmentIdAt(now), p.id, d.id, date, slot, Consultation, Scheduled, None, Some(""), None)
  }

  datatype BookStatus = MissingInformation | Booked(appointment: Appointment)

  datatype BookOutcome = BookOutcome(store: Store, status: BookStatus)

  /**
   * `handleBookAppointment`. The signed-in patient is read again at the click;
   * a missing patient, doctor, day or slot is refused with nothing written.
   * The handler itself does not look at the doctor's status.
   */
  function Book(st: Store, doctor: Option<Doctor>, date: Option<string>, slot: string, now: nat): (r: BookOutcome)
    ensures r.status.Booked? <==> GetCurrent(st).Some? && doctor.Some? && date.Some? && slot != ""
    ensures r.status.MissingInformation? ==> r.store == st
    ensures r.status.Booked? ==>
              var a := r.status.appointment;
              a == NewAppointment(GetCurrent(st).value, doctor.value, date.value, slot, now)
              && a.patientId == GetCurrent(st).value.id && a.doctorId == doctor.value.id
              && a.date == date.value && a.time == slot && a.status == Scheduled
              && Repository.Find(Appointments(r.store), a.id, AppointmentId) == Some(a)
    ensures UnchangedExcept(st, r.store, AppointmentsKey)
  {
    if GetCurrent(st).None? || doctor.None? || date.None? || slot == "" then BookOutcome(st, MissingInformation)
    else
      var a := NewAppointment(GetCurrent(st).value, doctor.value, date.value, slot, now);
      Repository.FindAfterUpsert(Appointments(st), a, AppointmentId);
      BookOutcome(AddAppointment(st, a), Booked(a))
  }

  /** A booking under an id not yet stored appends the new record and adds it to the patient's list. */
  lemma BookFreshAppends(st: Store, doctor: Option<Doctor>, date: Option<string>, slot: string, now: nat)
    requires Book(st, doctor, date, slot, now).status.Booked?
    requires !Repository.HasId(Appointments(st), AppointmentId, AppointmentIdAt(now))
    ensures var r := Book(st, doctor, date, slot, now);
            Appointments(r.store) == Appointments(st) + [r.status.appointment]
            && ByPatient(r.store, GetCurrent(st).value.id) == ByPatient(st, GetCurrent(st).value.id) + [r.status.appointment]
  {
    var r := Book(st, doctor, date, slot, now);
    var a := r.status.appointment;
    var p := OfPatient(GetCurrent(st).value.id);
    assert Appointments(r.store) == Appointments(st) + [a];
    FilterAppend(Appointments(st), [a], p);
    assert Filter([a], p) == [a] by {
      assert [a][1..] == [];
    }
  }

  /**
   * Two bookings at the same clock reading get the same id, so the second
   * overwrites the first: the collection grows by one record, not two.
   */
  lemma SameInstantOverwrites(st: Store, d1: Doctor, date1: string, slot1: string,
                              d2: Doctor, date2: string, slot2: string, now: nat)
    requires GetCurrent(st).Some? && slot1 != "" && slot2 != ""
    requires !Repository.HasId(Appointments(st), AppointmentId, AppointmentIdAt(now))
    ensures var once := Book(st, Some(d1), Some(date1), slot1, now);
            var twice := Book(once.store, Some(d2), Some(date2), slot2, now);
            Appointments(twice.store) == Appointments(st) + [twice.status.appointment]
  {
    var once := Book(st, Some(d1), Some(date1), slot1, now);
    var a1 := once.status.appointment;
    var a2 := NewAppointment(GetCurrent(st).value, d2, date2, slot2, now);
    assert Appointments(once.store) == Appointments(st) + [a1];
    assert GetCurrent(once.store) == GetCurrent(st);
    assert Repository.FirstWithId(Appointments(once.store), AppointmentId, a2.id, |Appointments(st)|);
    assert (Appointments(st) + [a1])[|Appointments(st)| := a2] == Appointments(st) + [a2];
  }

  /**
   * Nothing stops a second booking of the same doctor, day and slot: under two
   * fresh ids both are stored.
   */
  lemma DoubleBooking(st: Store, d: Doctor, date: string, slot: string, now1: nat, now2: nat)
    requires GetCurrent(st).Some? && slot != ""
    requires AppointmentIdAt(now1) != AppointmentIdAt(now2)
    requires !Repository.HasId(Appointments(st), AppointmentId, AppointmentIdAt(now1))
    requires !Repository.HasId(Appointments(st), AppointmentId, AppointmentIdAt(now2))
    ensures var first := Book(st, Some(d), Some(date), slot, now1);
            var second := Book(first.store, Some(d), Some(date), slot, now2);
            var a1 := first.status.appointment;
            var a2 := second.status.appointment;
            Appointments(second.store) == Appointments(st) + [a1, a2]
            && a1.id != a2.id && a1.doctorId == a2.doctorId && a1.date == a2.date && a1.time == a2.time
  {
    var p := GetCurrent(st).value;
    var a1 := NewAppointment(p, d, date, slot, now1);
    var a2 := NewAppointment(p, d, date, slot, now2);
    Repository.UpsertTwoFresh(Appointments(st), a1, a2, AppointmentId);
    var first := Book(st, Some(d), Some(date), slot, now1);
    assert GetCurrent(first.store) == Some(p);
  }

  /** The Book button: enabled only for an available doctor with a day and a slot chosen. */
  predicate BookEnabled(d: Doctor, date: Option<string>, slot: string) {
    d.status == Available && date.Some? && slot != ""
  }

  /** An enabled Book button, pressed while signed in, always books, at a slot the doctor offers. */
  lemma EnabledBookingSucceeds(st: Store, d: Doctor, date: Option<string>, clicked: seq<string>, now: nat)
    requires GetCurrent(st).Some?
    requires BookEnabled(d, date, Clicks(d, date, "", clicked))
    ensures var r := Book(st, Some(d), date, Clicks(d, date, "", clicked), now);
            r.status.Booked? && r.status.appointment.time in d.availability.timeSlots
  {
    ClicksSelectOfferedSlot(d, date, "", clicked);
  }

  /** A busy or offline doctor's Book button is never enabled, whatever is clicked. */
  lemma UnavailableNeverEnabled(d: Doctor, date: Option<string>, clicked: seq<string>)
    requires d.status != Available
    ensures !BookEnabled(d, date, Clicks(d, date, "", clicked))
    ensures Clicks(d, date, "", clicked) == ""
  {
    UnavailableIgnoresClicks(d, date, "", clicked);
  }
}

=== FILE: records.dfy ===
/** The four entities the portal persists, as immutable records. */
module Records {
  import opened Wrappers

  datatype Gender = Male | Female

  datatype EmergencyContact = EmergencyContact(name: string, phone: string, relation: string)

  datatype Patient = Patient(
    id: string,
    name: string,
    email: string,
    phone: string,
    dateOfBirth: string,
    gender: Gender,
    address: string,
    emergencyContact: EmergencyContact,
    medicalHistory: seq<string>,
    allergies: seq<string>,
    currentMedications: seq<string>,
    lastVisit: Option<string>,
    registrationDate: string)

  datatype DoctorStatus = Available | Busy | Offline

  datatype Availability = Availability(days: seq<string>, timeSlots: seq<string>)

  /** `rating` and `consultationFee` are JavaScript numbers; they are carried, never computed with. */
  datatype Doctor = Doctor(
    id: string,
    name: string,
    specialization: string,
    qualifications: seq<string>,
    experience: nat,
    rating: real,
    reviewCount: nat,
    image: string,
    availability: Availability,
    consultationFee: real,
    status: DoctorStatus,
    languages: seq<string>,
    location: string,
    bio: string)

  datatype AppointmentKind = Consultation | FollowUp | EmergencyVisit

  datatype AppointmentStatus = Scheduled | Completed | Cancelled

  /**
   * An appointment record. `doctor` is the extra key a persisted record gains
   * when the appointments page writes back an entry it had joined with its
   * doctor; records created by booking have none.
   */
  datatype Appointment = Appointment(
    id: string,
    patientId: string,
    doctorId: string,
    date: string,
    time: string,
    kind: AppointmentKind,
    status: AppointmentStatus,
    notes: Option<string>,
    symptoms: Option<string>,
    doctor: Option<Doctor>)

  datatype Sender = User | Bot

  datatype ChatMessage = ChatMessage(
    id: string,
    sender: Sender,
    message: string,
    timestamp: string,
    patientId: Option<string>)

  // Field accessors, passed to the generic repository as the identity of a record.

  function PatientId(p: Patient): string { p.id }
  function PatientEmail(p: Patient): string { p.email }
  function DoctorId(d: Doctor): string { d.id }
  function AppointmentId(a: Appointment): string { a.id }
  function MessageId(m: ChatMessage): string { m.id }
}

=== FILE: repository.dfy ===
/**
 * The id-keyed collection operations every domain collection shares
 * (`storage.add`, `storage.remove`, `storage.find`), over the sequence of
 * records held under one storage key. `id` extracts a record's identity.
 */
module Repository {
  import opened Wrappers
  import opened Seqs

  /** Some record in `items` has id `k`. */
  ghost predicate HasId<T>(items: seq<T>, id: T -> string, k: string) {
    exists i :: 0 <= i < |items| && id(items[i]) == k
  }

  /** Position `j` holds the first record whose id is `k`. */
  ghost predicate FirstWithId<T>(items: seq<T>, id: T -> string, k: string, j: int) {
    0 <= j < |items| && id(items[j]) == k && forall i :: 0 <= i < j ==> id(items[i]) != k
  }

  /** `items.findIndex(existing => existing.id === k)`. */
  function IndexOfId<T>(items: seq<T>, id: T -> string, k: string): (r: Option<nat>)
    ensures r.None? <==> !HasId(items, id, k)
    ensures r.Some? ==> FirstWithId(items, id, k, r.value)
  {
    FindFirst(items, x => id(x) == k)
  }

  /** `storage.add`: replace the first record with the item's id in place, or append the item. */
  function Upsert<T>(items: seq<T>, item: T, id: T -> string): (r: seq<T>)
    ensures !HasId(items, id, id(item)) ==> r == items + [item]
    ensures forall j :: FirstWithId(items, id, id(item), j) ==> r == items[j := item]
  {
    match IndexOfId(items, id, id(item))
    case Some(j) => items[j := item]
    case None => items + [item]
  }

  /** `storage.remove`: drop every record with id `k`, keeping the others in order. */
  function Remove<T>(items: seq<T>, k: string, id: T -> string): (r: seq<T>)
    ensures forall i :: 0 <= i < |r| ==> id(r[i]) != k
    ensures IsSubsequence(r, items)
    ensures multiset(r) <= multiset(items)
    ensures forall i :: 0 <= i < |items| && id(items[i]) != k ==> multiset(r)[items[i]] == multiset(items)[items[i]]
  {
    FilterMultiset(items, x => id(x) != k);
    Filter(items, x => id(x) != k)
  }

  /** `storage.find`: the first record with id `k`, if any. */
  function Find<T>(items: seq<T>, k: string, id: T -> string): (r: Option<T>)
    ensures r.None? <==> !HasId(items, id, k)
    ensures r.Some? ==> exists j :: FirstWithId(items, id, k, j) && items[j] == r.value
  {
    match IndexOfId(items, id, k)
    case Some(j) => Some(items[j])
    case None => None
  }

  /** Upsert of a present id keeps the length and changes only the first record with that id. */
  lemma UpsertPresent<T>(items: seq<T>, item: T, id: T -> string)
    requires HasId(items, id, id(item))
    ensures |Upsert(items, item, id)| == |items|
    ensures exists j :: FirstWithId(items, id, id(item), j)
                        && Upsert(items, item, id)[j] == item
                        && forall i :: 0 <= i < |items| && i != j ==> Upsert(items, item, id)[i] == items[i]
  {
    var j := IndexOfId(items, id, id(item)).value;
    assert FirstWithId(items, id, id(item), j);
  }

  /** Upsert of an absent id grows the collection by one at the end and leaves the prefix alone. */
  lemma UpsertAbsent<T>(items: seq<T>, item: T, id: T -> string)
    requires !HasId(items, id, id(item))
    ensures |Upsert(items, item, id)| == |items| + 1
    ensures Upsert(items, item, id)[..|items|] == items
    ensures Upsert(items, item, id)[|items|] == item
  {
  }

  /** Two upserts with fresh, different ids append both records in order. */
  lemma UpsertTwoFresh<T>(items: seq<T>, x: T, y: T, id: T -> string)
    requires id(x) != id(y)
    requires !HasId(items, id, id(x)) && !HasId(items, id, id(y))
    ensures Upsert(Upsert(items, x, id), y, id) == items + [x, y]
  {
    var once := items + [x];
    assert !HasId(once, id, id(y)) by {
      forall i | 0 <= i < |once|
        ensures id(once[i]) != id(y)
      {
        if i < |items| {
          assert once[i] == items[i];
        }
      }
    }
    assert once + [y] == items + [x, y];
  }

  /** After an upsert, finding the item's id yields the item. */
  lemma FindAfterUpsert<T>(items: seq<T>, item: T, id: T -> string)
    ensures Find(Upsert(items, item, id), id(item), id) == Some(item)
  {
    var r := Upsert(items, item, id);
    match IndexOfId(items, id, id(item))
    case Some(j) =>
      assert FirstWithId(r, id, id(item), j);
    case None =>
      assert FirstWithId(r, id, id(item), |items|);
  }

  /** An upsert does not change what any other id finds. */
  lemma FindOtherAfterUpsert<T>(items: seq<T>, item: T, id: T -> string, k: string)
    requires k != id(item)
    ensures Find(Upsert(items, item, id), k, id) == Find(items, k, id)
  {
    var r := Upsert(items, item, id);
    match IndexOfId(items, id, k)
    case Some(j) =>
      assert FirstWithId(r, id, k, j);
    case None =>
      assert !HasId(r, id, k);
  }

  /** Upserting the same record twice is the same as upserting it once. */
  lemma UpsertIdempotent<T>(items: seq<T>, item: T, id: T -> string)
    ensures Upsert(Upsert(items, item, id), item, id) == Upsert(items, item, id)
  {
    var r := Upsert(items, item, id);
    match IndexOfId(items, id, id(item))
    case Some(j) =>
      assert FirstWithId(r, id, id(item), j);
      assert r[j := item] == r;
    case None =>
      assert FirstWithId(r, id, id(item), |items|);
      assert r[|items| := item] == r;
  }

  /** Re-adding a record that is already the first one with its id changes nothing. */
  lemma UpsertExisting<T>(items: seq<T>, j: nat, id: T -> string)
    requires j < |items| && FirstWithId(items, id, id(items[j]), j)
    ensures Upsert(items, items[j], id) == items
  {
    assert items[j := items[j]] == items;
  }

  /** Upsert keeps the ids of a collection distinct. */
  lemma UpsertDistinct<T>(items: seq<T>, item: T, id: T -> string)
    requires DistinctKeys(items, id)
    ensures DistinctKeys(Upsert(items, item, id), id)
  {
    var r := Upsert(items, item, id);
    match IndexOfId(items, id, id(item))
    case Some(j) =>
      forall a, b | 0 <= a < b < |r|
        ensures id(r[a]) != id(r[b])
      {
        if a == j {
          assert id(items[b]) != id(items[j]);
        } else if b == j {
          assert id(items[a]) != id(items[j]);
        }
      }
    case None =>
      forall a, b | 0 <= a < b < |r|
        ensures id(r[a]) != id(r[b])
      {
        if b == |items| {
          assert id(items[a]) != id(item);
        }
      }
  }

  /** Removing an id nobody has leaves the collection unchanged. */
  lemma RemoveAbsent<T>(items: seq<T>, k: string, id: T -> string)
    requires !HasId(items, id, k)
    ensures Remove(items, k, id) == items
  {
    FilterAll(items, x => id(x) != k);
  }

  /** After a removal the id is gone, and the ids left are still distinct. */
  lemma RemoveFacts<T>(items: seq<T>, k: string, id: T -> string)
    ensures Find(Remove(items, k, id), k, id) == None
    ensures DistinctKeys(items, id) ==> DistinctKeys(Remove(items, k, id), id)
  {
    if DistinctKeys(items, id) {
      FilterDistinctKeys(items, x => id(x) != k, id);
    }
  }
}

=== FILE: responder.dfy ===
/**
 * The chat assistant's rule-based responder (`generateBotResponse`). The
 * lower-cased input is matched against seven ordered keyword rules; the first
 * rule with a keyword occurring in it decides the reply, and text matching no
 * rule gets a fixed fallback. Only the doctor rule reads data: the doctors
 * collection, passed in here as a snapshot.
 */
module Responder {
  import opened Wrappers
  import opened Seqs
  import opened Text
  import opened Records

  datatype Intent = Emergency | Booking | DoctorInfo | Symptoms | Hospital | Medication | Greeting

  /** An intent rule: the lower-case keywords whose presence selects `intent`. */
  datatype Rule = Rule(intent: Intent, keywords: seq<string>)

  /** The rules, highest priority first. */
  const Rules: seq<Rule> := [
    Rule(Emergency, ["emergency", "urgent", "help"]),
    Rule(Booking, ["appointment", "book", "schedule"]),
    Rule(DoctorInfo, ["doctor", "specialist"]),
    Rule(Symptoms, ["pain", "fever", "sick", "headache", "cough"]),
    Rule(Hospital, ["hospital", "location", "address"]),
    Rule(Medication, ["medication", "medicine", "prescription"]),
    Rule(Greeting, ["hello", "hi", "hey"])
  ]

  /** Some keyword occurs in `text`. */
  predicate MentionsAny(text: string, keywords: seq<string>)
    decreases |keywords|
  {
    |keywords| > 0 && (Contains(text, keywords[0]) || MentionsAny(text, keywords[1..]))
  }

  /** `MentionsAny` holds exactly when one of the keywords occurs. */
  lemma {:induction false} MentionsAnyIff(text: string, keywords: seq<string>)
    ensures MentionsAny(text, keywords) <==> exists i :: 0 <= i < |keywords| && Contains(text, keywords[i])
    decreases |keywords|
  {
    if |keywords| > 0 {
      MentionsAnyIff(text, keywords[1..]);
      if exists i :: 0 <= i < |keywords| && Contains(text, keywords[i]) {
        var i :| 0 <= i < |keywords| && Contains(text, keywords[i]);
        if i > 0 {
          assert keywords[1..][i - 1] == keywords[i];
        }
      }
      if MentionsAny(text, keywords[1..]) {
        var i :| 0 <= i < |keywords[1..]| && Contains(text, keywords[1..][i]);
        assert keywords[i + 1] == keywords[1..][i];
      }
    }
  }

  /** Position of the first rule that fires on the lower-cased input, if any. */
  function FirstFiring(input: string): (r: Option<nat>)
    ensures r.None? <==> forall k :: 0 <= k < |Rules| ==> !MentionsAny(Lower(input), Rules[k].keywords)
    ensures r.Some? ==> r.value < |Rules| && MentionsAny(Lower(input), Rules[r.value].keywords)
                        && forall j :: 0 <= j < r.value ==> !MentionsAny(Lower(input), Rules[j].keywords)
  {
    FirstFiringFrom(Lower(input), 0)
  }

  /** Position of the first rule at or after `k` that fires on `m`. */
  function FirstFiringFrom(m: string, k: nat): (r: Option<nat>)
    requires k <= |Rules|
    ensures r.None? <==> forall j :: k <= j < |Rules| ==> !MentionsAny(m, Rules[j].keywords)
    ensures r.Some? ==> k <= r.value < |Rules| && MentionsAny(m, Rules[r.value].keywords)
                        && forall j :: k <= j < r.value ==> !MentionsAny(m, Rules[j].keywords)
    decreases |Rules| - k
  {
    if k == |Rules| then None
    else if MentionsAny(m, Rules[k].keywords) then Some(k)
    else FirstFiringFrom(m, k + 1)
  }

  /** The intent of the first rule that fires on the lower-cased input, if any. */
  function Classify(input: string): (r: Option<Intent>)
    ensures r.None? <==> forall k :: 0 <= k < |Rules| ==> !MentionsAny(Lower(input), Rules[k].keywords)
    ensures r.Some? ==> exists k :: 0 <= k < |Rules| && Rules[k].intent == r.value
                                    && MentionsAny(Lower(input), Rules[k].keywords)
                                    && forall j :: 0 <= j < k ==> !MentionsAny(Lower(input), Rules[j].keywords)
  {
    match FirstFiring(input)
    case Some(k) => Some(Rules[k].intent)
    case None => None
  }

  /** Each rule has its own intent. */
  lemma RuleIntentsDistinct()
    ensures forall j, k :: 0 <= j < k < |Rules| ==> Rules[j].intent != Rules[k].intent
  {
  }

  /** Reference definition: the source's if/else cascade, keyword by keyword. */
  function ClassifyCascade(input: string): Option<Intent> {
    var m := Lower(input);
    if Contains(m, "emergency") || Contains(m, "urgent") || Contains(m, "help") then Some(Emergency)
    else if Contains(m, "appointment") || Contains(m, "book") || Contains(m, "schedule") then Some(Booking)
    else if Contains(m, "doctor") || Contains(m, "specialist") then Some(DoctorInfo)
    else if Contains(m, "pain") || Contains(m, "fever") || Contains(m, "sick")
         || Contains(m, "headache") || Contains(m, "cough") then Some(Symptoms)
    else if Contains(m, "hospital") || Contains(m, "location") || Contains(m, "address") then Some(Hospital)
    else if Contains(m, "medication") || Contains(m, "medicine") || Contains(m, "prescription") then Some(Medication)
    else if Contains(m, "hello") || Contains(m, "hi") || Contains(m, "hey") then Some(Greeting)
    else None
  }

  // The canned replies. Their exact wording (emoji, bullet layout) is abbreviated here.

  const EmergencyReply := "emergency guidance"
  const BookingReply := "booking help"
  const SymptomsReply := "symptom advice"
  const HospitalReply := "hospital information"
  const MedicationReply := "medication advice"
  const GreetingReply := "greeting"
  const FallbackReply := "general help"

  /** The figures the doctor reply reports about the snapshot. */
  datatype DoctorSummary = DoctorSummary(total: nat, listed: seq<Doctor>, available: nat)

  /** Count of doctors, the first three of them, and how many are available. */
  function Summarize(doctors: seq<Doctor>): (s: DoctorSummary)
    ensures s.total == |doctors|
    ensures |s.listed| <= 3 && |s.listed| <= |doctors| && s.listed == doctors[..|s.listed|]
    ensures |s.listed| == 3 || s.listed == doctors
    ensures s.available == Count(doctors, (d: Doctor) => d.status == Available)
  {
    var avail := (d: Doctor) => d.status == Available;
    FilterCount(doctors, avail);
    DoctorSummary(|doctors|, if |doctors| <= 3 then doctors else doctors[..3], |Filter(doctors, avail)|)
  }

  /** One listed doctor. The rating is left out: number formatting is not modelled. */
  function DoctorLine(d: Doctor): string {
    "\U{2022} Dr. " + d.name + " - " + d.specialization
  }

  function JoinLines(lines: seq<string>): string
    decreases |lines|
  {
    if |lines| == 0 then ""
    else if |lines| == 1 then lines[0]
    else lines[0] + "\n" + JoinLines(lines[1..])
  }

  /** The doctor-information reply, opened by the doctor emoji (man, zero-width joiner, staff of Aesculapius). */
  function DoctorReply(s: DoctorSummary): string {
    DoctorEmoji + " We have " + NatToString(s.total) + " expert doctors across various specializations:\n\n"
    + JoinLines(seq(|s.listed|, i requires 0 <= i < |s.listed| => DoctorLine(s.listed[i])))
    + "\n\n" + NatToString(s.available) + " doctors are currently available for appointments."
    + " Would you like to see the full directory or search for a specific specialty?"
  }

  const DoctorEmoji := "\U{1F468}\U{200D}\U{2695}\U{FE0F}"

  /** The reply for an intent whose text does not depend on data. */
  function CannedReply(intent: Intent): string
    requires intent != DoctorInfo
  {
    match intent
    case Emergency => EmergencyReply
    case Booking => BookingReply
    case Symptoms => SymptomsReply
    case Hospital => HospitalReply
    case Medication => MedicationReply
    case Greeting => GreetingReply
  }

  /** The reply once the deciding rule (if any) is known. */
  function ReplyTo(intent: Option<Intent>, doctors: seq<Doctor>): string {
    match intent
    case None => FallbackReply
    case Some(DoctorInfo) => DoctorReply(Summarize(doctors))
    case Some(i) => CannedReply(i)
  }

  /** The doctor reply opens with the doctor emoji, a character no other reply starts with. */
  lemma DoctorReplyOpens(s: DoctorSummary)
    ensures |DoctorReply(s)| > 0 && DoctorReply(s)[0] == '\U{1F468}'
  {
    assert DoctorReply(s) == DoctorEmoji + (DoctorReply(s)[|DoctorEmoji|..]);
  }

  /** The data-independent replies are pairwise different, and each starts with an ASCII letter. */
  lemma LabelsDistinct(i: Option<Intent>, j: Option<Intent>, d1: seq<Doctor>, d2: seq<Doctor>)
    requires i != Some(DoctorInfo) && j != Some(DoctorInfo)
    ensures |ReplyTo(i, d1)| > 0 && ReplyTo(i, d1)[0] < '\U{80}'
    ensures i != j ==> ReplyTo(i, d1) != ReplyTo(j, d2)
  {
  }

  /** Different deciding rules never produce the same reply, whatever the snapshots. */
  lemma ReplyToInjective(i: Option<Intent>, j: Option<Intent>, d1: seq<Doctor>, d2: seq<Doctor>)
    requires i != j
    ensures ReplyTo(i, d1) != ReplyTo(j, d2)
  {
    if i == Some(DoctorInfo) {
      DoctorReplyOpens(Summarize(d1));
      LabelsDistinct(j, j, d2, d2);
    } else if j == Some(DoctorInfo) {
      DoctorReplyOpens(Summarize(d2));
      LabelsDistinct(i, i, d1, d1);
    } else {
      LabelsDistinct(i, j, d1, d2);
    }
  }

  /** `generateBotResponse` with the doctors collection passed as `doctors`. */
  function Respond(input: string, doctors: seq<Doctor>): (r: string)
    ensures Classify(input) == Some(DoctorInfo) ==> r == DoctorReply(Summarize(doctors))
    ensures r == FallbackReply <==> Classify(input).None?
  {
    var intent := Classify(input);
    if intent.None? then ReplyTo(intent, doctors)
    else
      ReplyToInjective(intent, None, doctors, doctors);
      ReplyTo(intent, doctors)
  }

  /** Each rule fires exactly when one of its listed keywords occurs. */
  lemma RuleKeywords(m: string)
    ensures MentionsAny(m, Rules[0].keywords) <==> Contains(m, "emergency") || Contains(m, "urgent") || Contains(m, "help")
    ensures MentionsAny(m, Rules[1].keywords) <==> Contains(m, "appointment") || Contains(m, "book") || Contains(m, "schedule")
    ensures MentionsAny(m, Rules[2].keywords) <==> Contains(m, "doctor") || Contains(m, "specialist")
    ensures MentionsAny(m, Rules[3].keywords) <==> Contains(m, "pain") || Contains(m, "fever") || Contains(m, "sick")
                                                   || Contains(m, "headache") || Contains(m, "cough")
    ensures MentionsAny(m, Rules[4].keywords) <==> Contains(m, "hospital") || Contains(m, "location") || Contains(m, "address")
    ensures MentionsAny(m, Rules[5].keywords) <==> Contains(m, "medication") || Contains(m, "medicine") || Contains(m, "prescription")
    ensures MentionsAny(m, Rules[6].keywords) <==> Contains(m, "hello") || Contains(m, "hi") || Contains(m, "hey")
  {
  }

  /** The rule table classifies exactly as the source's cascade of `includes` tests. */
  lemma ClassifyAgreesWithCascade(input: string)
    ensures Classify(input) == ClassifyCascade(input)
  {
    RuleKeywords(Lower(input));
  }

  /** A rule that fires pre-empts every later rule. */
  lemma EarlierRuleWins(input: string, j: nat, k: nat)
    requires j < k < |Rules|
    requires MentionsAny(Lower(input), Rules[j].keywords)
    ensures Classify(input).Some?
    ensures Classify(input) != Some(Rules[k].intent)
  {
    var q := FirstFiring(input).value;
    assert q <= j;
    RuleIntentsDistinct();
  }

  /**
   * A message containing "emergency" in any letter case gets the emergency reply,
   * whatever else it mentions: "I have an emergency and need an appointment"
   * is answered as an emergency, not as a booking request.
   */
  lemma EmergencyWordWins(before: string, word: string, after: string, doctors: seq<Doctor>)
    requires Lower(word) == "emergency"
    ensures Respond(before + word + after, doctors) == EmergencyReply
  {
    var input := before + word + after;
    var m := Lower(input);
    var n := |before|;
    forall i | 0 <= i < 9
      ensures m[n + i] == Lower(word)[i]
    {
      assert input[n + i] == word[i];
    }
    assert m[n..n + 9] == "emergency";
    ContainsWitness(m, "emergency", n);
    assert MentionsAny(m, Rules[0].keywords);
    assert FirstFiring(input) == Some(0);
  }

  /** Text in which no keyword occurs gets the fallback reply, whatever the snapshot. */
  lemma NoKeywordFallback(input: string, doctors: seq<Doctor>)
    requires forall k, i :: 0 <= k < |Rules| && 0 <= i < |Rules[k].keywords| ==> !Contains(Lower(input), Rules[k].keywords[i])
    ensures Respond(input, doctors) == FallbackReply
  {
    forall k | 0 <= k < |Rules|
      ensures !MentionsAny(Lower(input), Rules[k].keywords)
    {
      MentionsAnyIff(Lower(input), Rules[k].keywords);
    }
  }

  /** The empty message gets the fallback reply. */
  lemma EmptyInputFallback(doctors: seq<Doctor>)
    ensures Respond("", doctors) == FallbackReply
  {
    forall k, i | 0 <= k < |Rules| && 0 <= i < |Rules[k].keywords|
      ensures !Contains(Lower(""), Rules[k].keywords[i])
    {
      assert |Rules[k].keywords[i]| > 0;
      EmptyContainsNothing(Rules[k].keywords[i]);
    }
    NoKeywordFallback("", doctors);
  }

  /** Matching ignores case: a message and its lower-case form get the same reply. */
  lemma RespondIgnoresCase(input: string, doctors: seq<Doctor>)
    ensures Respond(input, doctors) == Respond(Lower(input), doctors)
  {
    LowerFacts(input);
  }

  /** Only the doctor reply reads the snapshot; every other reply is the same for any two snapshots. */
  lemma OnlyDoctorReplyReadsSnapshot(input: string, d1: seq<Doctor>, d2: seq<Doctor>)
    requires Classify(input) != Some(DoctorInfo)
    ensures Respond(input, d1) == Respond(input, d2)
  {
  }

  /** The reply tells which rule decided: messages classified differently never get the same reply. */
  lemma RepliesIdentifyIntent(a: string, b: string, d1: seq<Doctor>, d2: seq<Doctor>)
    ensures Classify(a) != Classify(b) ==> Respond(a, d1) != Respond(b, d2)
  {
    if Classify(a) != Classify(b) {
      ReplyToInjective(Classify(a), Classify(b), d1, d2);
    }
  }

  /**
   * Every reply other than the doctor summary is a constant: two messages
   * decided by the same non-doctor rule, or by no rule, get the same reply.
   */
  lemma SameIntentSameReply(a: string, b: string, d1: seq<Doctor>, d2: seq<Doctor>)
    ensures Classify(a) == Classify(b) && Classify(a) != Some(DoctorInfo) ==> Respond(a, d1) == Respond(b, d2)
  {
  }
}

=== FILE: seed.dfy ===
/** The demo-data bootstrap run when the landing page loads. */
module Seed {
  import opened Wrappers
  import opened Seqs
  import opened Records
  import opened Storage

  const SampleDoctors: seq<Doctor> := [
    Doctor("1", "Dr. Sarah Johnson", "Cardiology", ["MBBS", "MD Cardiology", "FACC"], 12, 4.8, 127,
      "/api/placeholder/300/300",
      Availability(["Monday", "Tuesday", "Wednesday", "Friday"], ["09:00", "10:00", "11:00", "14:00", "15:00", "16:00"]),
      150.0, Available, ["English", "Urdu"], "Block A, 2nd Floor", "Experienced cardiologist."),
    Doctor("2", "Dr. Ahmed Khan", "Orthopedics", ["MBBS", "MS Orthopedics", "FRCS"], 15, 4.9, 203,
      "/api/placeholder/300/300",
      Availability(["Monday", "Tuesday", "Thursday", "Saturday"], ["08:00", "09:00", "10:00", "11:00", "15:00", "16:00"]),
      120.0, Available, ["English", "Urdu", "Hindi"], "Block B, 1st Floor", "Joint replacement and sports medicine."),
    Doctor("3", "Dr. Fatima Ali", "Dermatology", ["MBBS", "MD Dermatology", "DDV"], 8, 4.7, 89,
      "/api/placeholder/300/300",
      Availability(["Tuesday", "Wednesday", "Thursday", "Friday"], ["10:00", "11:00", "12:00", "14:00", "15:00"]),
      100.0, Busy, ["English", "Urdu"], "Block C, 3rd Floor", "Cosmetic dermatology and skin cancer treatment."),
    Doctor("4", "Dr. Michael Chen", "Neurology", ["MBBS", "MD Neurology", "DM"], 18, 4.9, 156,
      "/api/placeholder/300/300",
      Availability(["Monday", "Wednesday", "Friday"], ["09:00", "10:00", "11:00", "14:00", "15:00"]),
      200.0, Available, ["English", "Chinese"], "Block A, 4th Floor", "Stroke treatment and neurological disorders.")
  ]

  const SamplePatient: Patient := Patient(
    "patient-1", "John Doe", "john.doe@example.com", "+92-300-1234567", "1985-06-15", Male,
    "123 Main Street, Karachi", EmergencyContact("Jane Doe", "+92-300-7654321", "Wife"),
    ["Hypertension", "Diabetes Type 2"], ["Penicillin", "Peanuts"], ["Metformin 500mg", "Lisinopril 10mg"],
    Some("2024-08-20"), "2024-01-15")

  /**
   * `initializeDummyData`: when the doctors collection reads as empty, write the
   * sample doctors, the sample patient and empty appointment and chat
   * collections; otherwise do nothing. The session entry is never touched.
   */
  function InitializeDummyData(st: Store): (r: Store)
    ensures |Doctors(st)| > 0 ==> r == st
    ensures |Doctors(st)| == 0 ==>
              |Doctors(r)| == 4 && Patients(r) == [SamplePatient]
              && Appointments(r) == [] && Messages(r) == []
    ensures r.currentUser == st.currentUser
    ensures |Doctors(r)| > 0
  {
    if |Doctors(st)| > 0 then st
    else st.(doctors := Stored(SampleDoctors), patients := Stored([SamplePatient]),
             appointments := Stored([]), chatHistory := Stored([]))
  }

  /** Seeding twice is the same as seeding once. */
  lemma SeedIdempotent(st: Store)
    ensures InitializeDummyData(InitializeDummyData(st)) == InitializeDummyData(st)
  {
  }

  /** The seeded doctors have distinct ids, and three of the four are available. */
  lemma SeedDoctorsShape()
    ensures DistinctKeys(SampleDoctors, DoctorId)
    ensures Count(SampleDoctors, (d: Doctor) => d.status == Available) == 3
  {
  }

  /** After seeding an empty store, the demo patient can sign in by email. */
  lemma SeedPatientFindable(st: Store)
    requires |Doctors(st)| == 0
    ensures FindByEmail(InitializeDummyData(st), "john.doe@example.com") == Some(SamplePatient)
  {
    var r := InitializeDummyData(st);
    assert Patients(r)[0].email == "john.doe@example.com";
  }
}

=== FILE: seqs.dfy ===
/** Order-preserving filtering, first-match search and distinctness over sequences. */
module Seqs {
  import opened Wrappers

  /** `a` is obtained from `b` by deleting zero or more elements, order kept. */
  ghost predicate IsSubsequence<T>(a: seq<T>, b: seq<T>)
    decreases |b|
  {
    |a| == 0 ||
    (|b| > 0 && ((a[0] == b[0] && IsSubsequence(a[1..], b[1..])) || IsSubsequence(a, b[1..])))
  }

  /** No element occurs twice. */
  ghost predicate Distinct<T>(s: seq<T>) {
    forall i, j :: 0 <= i < j < |s| ==> s[i] != s[j]
  }

  /** No two elements share a key. */
  ghost predicate DistinctKeys<T, K>(s: seq<T>, key: T -> K) {
    forall i, j :: 0 <= i < j < |s| ==> key(s[i]) != key(s[j])
  }

  /** The elements satisfying `p`, in their original order (JavaScript `Array.prototype.filter`). */
  function Filter<T>(s: seq<T>, p: T -> bool): (r: seq<T>)
    ensures forall i :: 0 <= i < |r| ==> p(r[i])
    ensures IsSubsequence(r, s)
    decreases |s|
  {
    if |s| == 0 then []
    else if p(s[0]) then [s[0]] + Filter(s[1..], p)
    else Filter(s[1..], p)
  }

  /** Filtering keeps every element satisfying `p` as often as it occurs, and nothing else. */
  lemma {:induction false} FilterMultiset<T>(s: seq<T>, p: T -> bool)
    ensures multiset(Filter(s, p)) <= multiset(s)
    ensures forall i :: 0 <= i < |s| && p(s[i]) ==> multiset(Filter(s, p))[s[i]] == multiset(s)[s[i]]
    decreases |s|
  {
    if |s| > 0 {
      FilterMultiset(s[1..], p);
      assert s == [s[0]] + s[1..];
      var r := Filter(s, p);
      var t := Filter(s[1..], p);
      forall i | 0 <= i < |s| && p(s[i])
        ensures multiset(r)[s[i]] == multiset(s)[s[i]]
      {
        if i > 0 {
          assert s[1..][i - 1] == s[i];
        } else if |s[1..]| > 0 && s[0] in s[1..] {
          var k :| 0 <= k < |s[1..]| && s[1..][k] == s[0];
        }
      }
    }
  }

  /** Number of elements satisfying `p`. */
  function Count<T>(s: seq<T>, p: T -> bool): nat
    decreases |s|
  {
    if |s| == 0 then 0 else (if p(s[0]) then 1 else 0) + Count(s[1..], p)
  }

  /** Membership in a filtered sequence. */
  lemma FilterMember<T>(s: seq<T>, p: T -> bool, x: T)
    ensures x in Filter(s, p) <==> x in s && p(x)
  {
    var r := Filter(s, p);
    FilterMultiset(s, p);
    if x in s && p(x) {
      var i :| 0 <= i < |s| && s[i] == x;
      assert multiset(r)[x] > 0;
    }
    if x in r {
      assert multiset(r)[x] > 0;
    }
  }

  /** Filtering keeps exactly `Count` elements. */
  lemma {:induction false} FilterCount<T>(s: seq<T>, p: T -> bool)
    ensures |Filter(s, p)| == Count(s, p)
    decreases |s|
  {
    if |s| > 0 {
      FilterCount(s[1..], p);
    }
  }

  /** A filter that rejects nothing is the identity. */
  lemma {:induction false} FilterAll<T>(s: seq<T>, p: T -> bool)
    requires forall i :: 0 <= i < |s| ==> p(s[i])
    ensures Filter(s, p) == s
    decreases |s|
  {
    if |s| > 0 {
      FilterAll(s[1..], p);
      assert s == [s[0]] + s[1..];
    }
  }

  /** Filtering depends only on which elements the predicate accepts. */
  lemma {:induction false} FilterExtensional<T>(s: seq<T>, p: T -> bool, q: T -> bool)
    requires forall i :: 0 <= i < |s| ==> p(s[i]) == q(s[i])
    ensures Filter(s, p) == Filter(s, q)
    decreases |s|
  {
    if |s| > 0 {
      FilterExtensional(s[1..], p, q);
    }
  }

  /** Filtering a sequence whose keys are distinct leaves them distinct. */
  lemma {:induction false} FilterDistinctKeys<T, K>(s: seq<T>, p: T -> bool, key: T -> K)
    requires DistinctKeys(s, key)
    ensures DistinctKeys(Filter(s, p), key)
    decreases |s|
  {
    if |s| > 0 {
      var t := Filter(s[1..], p);
      FilterDistinctKeys(s[1..], p, key);
      if p(s[0]) {
        var r := [s[0]] + t;
        forall i, j | 0 <= i < j < |r|
          ensures key(r[i]) != key(r[j])
        {
          if i == 0 {
            FilterMember(s[1..], p, r[j]);
            var k :| 0 <= k < |s[1..]| && s[1..][k] == r[j];
            assert s[k + 1] == r[j];
          }
        }
      }
    }
  }

  /** The complement of a predicate. */
  function Not<T>(p: T -> bool): T -> bool {
    x => !p(x)
  }

  /** Filtering distributes over concatenation. */
  lemma {:induction false} FilterAppend<T>(s: seq<T>, t: seq<T>, p: T -> bool)
    ensures Filter(s + t, p) == Filter(s, p) + Filter(t, p)
    decreases |s|
  {
    if |s| == 0 {
      assert s + t == t;
    } else {
      var u := s + t;
      assert u[0] == s[0];
      assert u[1..] == s[1..] + t;
      FilterAppend(s[1..], t, p);
      if p(s[0]) {
        calc {
          Filter(u, p);
          [s[0]] + Filter(s[1..] + t, p);
          [s[0]] + (Filter(s[1..], p) + Filter(t, p));
          ([s[0]] + Filter(s[1..], p)) + Filter(t, p);
        }
      } else {
        assert Filter(u, p) == Filter(s[1..] + t, p);
      }
    }
  }

  /** A predicate and its complement split a sequence into two parts that together are all of it. */
  lemma {:induction false} FilterPartition<T>(s: seq<T>, p: T -> bool)
    ensures |Filter(s, p)| + |Filter(s, Not(p))| == |s|
    ensures multiset(Filter(s, p)) + multiset(Filter(s, Not(p))) == multiset(s)
    decreases |s|
  {
    if |s| > 0 {
      FilterPartition(s[1..], p);
      assert s == [s[0]] + s[1..];
    }
  }

  /** Replacing one element by another on the same side of `p` keeps the count. */
  lemma {:induction false} CountUpdate<T>(s: seq<T>, j: nat, x: T, p: T -> bool)
    requires j < |s| && p(x) == p(s[j])
    ensures Count(s[j := x], p) == Count(s, p)
    decreases |s|
  {
    if j > 0 {
      CountUpdate(s[1..], j - 1, x, p);
      assert s[j := x][1..] == s[1..][j - 1 := x];
    } else {
      assert s[j := x][1..] == s[1..];
    }
  }

  /** Index of the first element satisfying `p` (JavaScript `findIndex`, with `None` for -1). */
  function FindFirst<T>(s: seq<T>, p: T -> bool): (r: Option<nat>)
    ensures r.None? <==> forall i :: 0 <= i < |s| ==> !p(s[i])
    ensures r.Some? ==> r.value < |s| && p(s[r.value]) && forall i :: 0 <= i < r.value ==> !p(s[i])
    decreases |s|
  {
    if |s| == 0 then None
    else if p(s[0]) then Some(0)
    else match FindFirst(s[1..], p)
      case None => None
      case Some(j) => Some(j + 1)
  }

  /** The distinct elements in order of first occurrence (`[...new Set(xs)]`). */
  function Unique<T(==)>(xs: seq<T>): seq<T>
    decreases |xs|
  {
    if |xs| == 0 then []
    else
      var u := Unique(xs[..|xs| - 1]);
      if xs[|xs| - 1] in u then u else u + [xs[|xs| - 1]]
  }

  /**
   * `Unique` keeps every element once and adds none, and it keeps them in
   * order of first occurrence: de-duplicating any prefix of `xs` gives a
   * prefix of the whole result.
   */
  lemma {:induction false} UniqueFacts<T>(xs: seq<T>)
    ensures Distinct(Unique(xs))
    ensures forall x :: x in Unique(xs) <==> x in xs
    ensures forall n :: 0 <= n <= |xs| ==> Unique(xs[..n]) <= Unique(xs)
    decreases |xs|
  {
    if |xs| > 0 {
      var init := xs[..|xs| - 1];
      UniqueFacts(init);
      assert xs == init + [xs[|xs| - 1]];
      forall n | 0 <= n <= |xs|
        ensures Unique(xs[..n]) <= Unique(xs)
      {
        if n < |xs| {
          assert xs[..n] == init[..n];
        } else {
          assert xs[..n] == xs;
        }
      }
    }
  }
}

=== FILE: storage.dfy ===
/**
 * The persistent store (five named entries of a key-value substrate) and the
 * four domain repositories built on it: patients with the current-session
 * entry, doctors with search, appointments, and the chat history.
 */
module Storage {
  import opened Wrappers
  import opened Seqs
  import opened Text
  import opened Records
  import Repository

  /**
   * What one storage entry holds: nothing, text that does not parse, or a
   * parsed value. The substrate keeps JSON; parsing is not modelled.
   */
  datatype Cell<T> = Missing | Corrupt | Stored(value: T)

  /** The five storage entries. */
  datatype Key = PatientsKey | DoctorsKey | AppointmentsKey | ChatHistoryKey | CurrentUserKey

  datatype Store = Store(
    patients: Cell<seq<Patient>>,
    doctors: Cell<seq<Doctor>>,
    appointments: Cell<seq<Appointment>>,
    chatHistory: Cell<seq<ChatMessage>>,
    currentUser: Cell<Patient>)

  /** Every entry other than `k` is the same in `a` and `b`. */
  ghost predicate UnchangedExcept(a: Store, b: Store, k: Key) {
    (k != PatientsKey ==> b.patients == a.patients)
    && (k != DoctorsKey ==> b.doctors == a.doctors)
    && (k != AppointmentsKey ==> b.appointments == a.appointments)
    && (k != ChatHistoryKey ==> b.chatHistory == a.chatHistory)
    && (k != CurrentUserKey ==> b.currentUser == a.currentUser)
  }

  // ---------------------------------------------------------------------------
  // Generic key-level operations (storage.get / add / remove / find)
  // ---------------------------------------------------------------------------

  /** `storage.get`: a missing or unparseable entry reads as the empty collection. */
  function Get<T>(c: Cell<seq<T>>): seq<T> {
    if c.Stored? then c.value else []
  }

  /** `storage.add` on one entry: read, upsert, write back. */
  function AddTo<T>(c: Cell<seq<T>>, item: T, id: T -> string): (r: Cell<seq<T>>)
    ensures r.Stored? && Get(r) == Repository.Upsert(Get(c), item, id)
    ensures Repository.Find(Get(r), id(item), id) == Some(item)
    ensures forall k :: k != id(item) ==> Repository.Find(Get(r), k, id) == Repository.Find(Get(c), k, id)
  {
    var items := Repository.Upsert(Get(c), item, id);
    Repository.FindAfterUpsert(Get(c), item, id);
    assert forall k :: k != id(item) ==> Repository.Find(items, k, id) == Repository.Find(Get(c), k, id) by {
      forall k | k != id(item)
        ensures Repository.Find(items, k, id) == Repository.Find(Get(c), k, id)
      {
        Repository.FindOtherAfterUpsert(Get(c), item, id, k);
      }
    }
    Stored(items)
  }

  /** `storage.remove` on one entry: read, drop the id, write back. */
  function RemoveFrom<T>(c: Cell<seq<T>>, k: string, id: T -> string): (r: Cell<seq<T>>)
    ensures r.Stored?
    ensures Repository.Find(Get(r), k, id) == None
    ensures IsSubsequence(Get(r), Get(c))
    ensures multiset(Get(r)) <= multiset(Get(c))
    ensures forall i :: 0 <= i < |Get(c)| && id(Get(c)[i]) != k ==>
              multiset(Get(r))[Get(c)[i]] == multiset(Get(c))[Get(c)[i]]
  {
    Repository.RemoveFacts(Get(c), k, id);
    Stored(Repository.Remove(Get(c), k, id))
  }

  /** `storage.find` on one entry. */
  function FindIn<T>(c: Cell<seq<T>>, k: string, id: T -> string): (r: Option<T>)
    ensures !c.Stored? ==> r.None?
    ensures r.None? <==> !Repository.HasId(Get(c), id, k)
    ensures r.Some? ==> exists j :: Repository.FirstWithId(Get(c), id, k, j) && Get(c)[j] == r.value
  {
    Repository.Find(Get(c), k, id)
  }

  /** Adding to a missing or corrupt entry leaves exactly the new record there. */
  lemma AddToUnreadable<T>(c: Cell<seq<T>>, item: T, id: T -> string)
    requires !c.Stored?
    ensures Get(AddTo(c, item, id)) == [item]
  {
  }

  // ---------------------------------------------------------------------------
  // Patients and the current-session entry
  // ---------------------------------------------------------------------------

  function Patients(st: Store): seq<Patient> {
    Get(st.patients)
  }

  /** `patientStorage.add`. */
  function AddPatient(st: Store, p: Patient): (r: Store)
    ensures UnchangedExcept(st, r, PatientsKey)
    ensures Patients(r) == Repository.Upsert(Patients(st), p, PatientId)
  {
    st.(patients := AddTo(st.patients, p, PatientId))
  }

  /** `patientStorage.findByEmail`: the first patient whose email is exactly `email`. */
  function FindByEmail(st: Store, email: string): (r: Option<Patient>)
    ensures r.None? <==> forall i :: 0 <= i < |Patients(st)| ==> Patients(st)[i].email != email
    ensures r.Some? ==> exists j :: 0 <= j < |Patients(st)| && Patients(st)[j] == r.value
                                    && r.value.email == email
                                    && forall i :: 0 <= i < j ==> Patients(st)[i].email != email
  {
    var r := Repository.Find(Patients(st), email, PatientEmail);
    assert r.Some? ==> exists j :: Repository.FirstWithId(Patients(st), PatientEmail, email, j) && Patients(st)[j] == r.value;
    r
  }

  /** `patientStorage.getCurrent`: an unreadable or absent entry means nobody is signed in. */
  function GetCurrent(st: Store): (r: Option<Patient>)
    ensures r.None? <==> !st.currentUser.Stored?
    ensures r.Some? ==> st.currentUser == Stored(r.value)
  {
    if st.currentUser.Stored? then Some(st.currentUser.value) else None
  }

  /** `patientStorage.setCurrent`: store a patient, or remove the entry for `null`. */
  function SetCurrent(st: Store, p: Option<Patient>): (r: Store)
    ensures GetCurrent(r) == p
    ensures UnchangedExcept(st, r, CurrentUserKey)
  {
    match p
    case Some(q) => st.(currentUser := Stored(q))
    case None => st.(currentUser := Missing)
  }

  // ---------------------------------------------------------------------------
  // Doctors
  // ---------------------------------------------------------------------------

  function Doctors(st: Store): seq<Doctor> {
    Get(st.doctors)
  }

  /** `doctorStorage.add`. */
  function AddDoctor(st: Store, d: Doctor): (r: Store)
    ensures UnchangedExcept(st, r, DoctorsKey)
    ensures Doctors(r) == Repository.Upsert(Doctors(st), d, DoctorId)
  {
    st.(doctors := AddTo(st.doctors, d, DoctorId))
  }

  /** `doctorStorage.findById`. */
  function FindDoctor(st: Store, id: string): (r: Option<Doctor>)
    ensures r.None? <==> forall i :: 0 <= i < |Doctors(st)| ==> Doctors(st)[i].id != id
    ensures r.Some? ==> r.value.id == id && r.value in Doctors(st)
    ensures r.Some? ==> exists j :: Repository.FirstWithId(Doctors(st), DoctorId, id, j) && Doctors(st)[j] == r.value
  {
    var r := FindIn(st.doctors, id, DoctorId);
    assert r.Some? ==> exists j :: Repository.FirstWithId(Doctors(st), DoctorId, id, j) && Doctors(st)[j] == r.value;
    r
  }

  /** The query part of the search: empty, or a case-insensitive substring of the name or specialization. */
  predicate MatchesQuery(d: Doctor, query: string) {
    query == ""
    || Contains(Lower(d.name), Lower(query))
    || Contains(Lower(d.specialization), Lower(query))
  }

  /** The filter part of the search: absent or empty means no filter, otherwise exact equality. */
  predicate MatchesSpecialization(d: Doctor, specialization: Option<string>) {
    specialization.None? || specialization.value == "" || d.specialization == specialization.value
  }

  /** The predicate `search` filters with. */
  function SearchHit(query: string, specialization: Option<string>): Doctor -> bool {
    d => MatchesQuery(d, query) && MatchesSpecialization(d, specialization)
  }

  /** `doctorStorage.search`: the doctors matching both the query and the filter, in storage order. */
  function Search(st: Store, query: string, specialization: Option<string>): (r: seq<Doctor>)
    ensures forall i :: 0 <= i < |r| ==> MatchesQuery(r[i], query) && MatchesSpecialization(r[i], specialization)
    ensures IsSubsequence(r, Doctors(st))
    ensures forall d :: d in Doctors(st) && MatchesQuery(d, query) && MatchesSpecialization(d, specialization)
                        ==> d in r
    ensures |r| == Count(Doctors(st), SearchHit(query, specialization))
  {
    var ds := Doctors(st);
    var p := SearchHit(query, specialization);
    FilterCount(ds, p);
    forall d | d in ds && p(d)
      ensures d in Filter(ds, p)
    {
      FilterMember(ds, p, d);
    }
    Filter(ds, p)
  }

  /** `search("", undefined)` and `search("", "")` return every doctor. */
  lemma SearchUnfiltered(st: Store, specialization: Option<string>)
    requires specialization.None? || specialization.value == ""
    ensures Search(st, "", specialization) == Doctors(st)
  {
    FilterAll(Doctors(st), SearchHit("", specialization));
  }

  /** With an empty query and a non-empty filter, exactly the doctors of that specialization are kept. */
  lemma SearchBySpecialization(st: Store, s: string, d: Doctor)
    requires s != ""
    ensures d in Search(st, "", Some(s)) <==> d in Doctors(st) && d.specialization == s
  {
    FilterMember(Doctors(st), SearchHit("", Some(s)), d);
  }

  /** The query is compared case-insensitively: a query and its lower-case form select the same doctors. */
  lemma SearchIgnoresQueryCase(st: Store, query: string, specialization: Option<string>)
    ensures Search(st, query, specialization) == Search(st, Lower(query), specialization)
  {
    LowerFacts(query);
    assert query == "" <==> Lower(query) == "";
    FilterExtensional(Doctors(st), SearchHit(query, specialization), SearchHit(Lower(query), specialization));
  }

  // ---------------------------------------------------------------------------
  // Appointments
  // ---------------------------------------------------------------------------

  function Appointments(st: Store): seq<Appointment> {
    Get(st.appointments)
  }

  /** `appointmentStorage.add`. */
  function AddAppointment(st: Store, a: Appointment): (r: Store)
    ensures UnchangedExcept(st, r, AppointmentsKey)
    ensures Appointments(r) == Repository.Upsert(Appointments(st), a, AppointmentId)
  {
    st.(appointments := AddTo(st.appointments, a, AppointmentId))
  }

  function OfPatient(patientId: string): Appointment -> bool {
    (a: Appointment) => a.patientId == patientId
  }

  function OfDoctor(doctorId: string): Appointment -> bool {
    (a: Appointment) => a.doctorId == doctorId
  }

  /** `appointmentStorage.getByPatient`: exactly the patient's appointments, in storage order. */
  function ByPatient(st: Store, patientId: string): (r: seq<Appointment>)
    ensures forall i :: 0 <= i < |r| ==> r[i].patientId == patientId && r[i] in Appointments(st)
    ensures IsSubsequence(r, Appointments(st))
    ensures forall a :: a in Appointments(st) && a.patientId == patientId ==> a in r
    ensures |r| == Count(Appointments(st), OfPatient(patientId))
  {
    var p := OfPatient(patientId);
    forall a | a in Appointments(st) && p(a)
      ensures a in Filter(Appointments(st), p)
    {
      FilterMember(Appointments(st), p, a);
    }
    forall i | 0 <= i < |Filter(Appointments(st), p)|
      ensures Filter(Appointments(st), p)[i] in Appointments(st)
    {
      FilterMember(Appointments(st), p, Filter(Appointments(st), p)[i]);
    }
    FilterCount(Appointments(st), p);
    Filter(Appointments(st), p)
  }

  /** `appointmentStorage.getByDoctor`: exactly the doctor's appointments, in storage order. */
  function ByDoctor(st: Store, doctorId: string): (r: seq<Appointment>)
    ensures forall i :: 0 <= i < |r| ==> r[i].doctorId == doctorId
    ensures IsSubsequence(r, Appointments(st))
    ensures forall a :: a in Appointments(st) && a.doctorId == doctorId ==> a in r
    ensures |r| == Count(Appointments(st), OfDoctor(doctorId))
  {
    var p := OfDoctor(doctorId);
    FilterCount(Appointments(st), p);
    forall a | a in Appointments(st) && p(a)
      ensures a in Filter(Appointments(st), p)
    {
      FilterMember(Appointments(st), p, a);
    }
    Filter(Appointments(st), p)
  }

  // ---------------------------------------------------------------------------
  // Chat history
  // ---------------------------------------------------------------------------

  function Messages(st: Store): seq<ChatMessage> {
    Get(st.chatHistory)
  }

  function TaggedWith(patientId: Option<string>): ChatMessage -> bool {
    (m: ChatMessage) => m.patientId == patientId
  }

  /**
   * `chatStorage.getHistory`: every message when the id is absent or empty
   * (both are falsy), otherwise exactly the messages tagged with that patient.
   */
  function History(st: Store, patientId: Option<string>): (r: seq<ChatMessage>)
    ensures patientId.None? || patientId.value == "" ==> r == Messages(st)
    ensures patientId.Some? && patientId.value != "" ==>
              (forall i :: 0 <= i < |r| ==> r[i].patientId == patientId)
              && (forall m :: m in Messages(st) && m.patientId == patientId ==> m in r)
              && |r| == Count(Messages(st), TaggedWith(patientId))
    ensures IsSubsequence(r, Messages(st))
  {
    if patientId.None? || patientId.value == "" then
      FilterAll(Messages(st), (m: ChatMessage) => true);
      Messages(st)
    else
      var p := TaggedWith(patientId);
      FilterCount(Messages(st), p);
      forall m | m in Messages(st) && p(m)
        ensures m in Filter(Messages(st), p)
      {
        FilterMember(Messages(st), p, m);
      }
      Filter(Messages(st), p)
  }

  /** `chatStorage.addMessage`. */
  function AddMessage(st: Store, m: ChatMessage): (r: Store)
    ensures UnchangedExcept(st, r, ChatHistoryKey)
    ensures Messages(r) == Repository.Upsert(Messages(st), m, MessageId)
  {
    st.(chatHistory := AddTo(st.chatHistory, m, MessageId))
  }

  /** `chatStorage.clearHistory`: the history, for every patient, becomes empty. */
  function ClearHistory(st: Store): (r: Store)
    ensures UnchangedExcept(st, r, ChatHistoryKey)
    ensures forall pid :: History(r, pid) == []
  {
    var r := st.(chatHistory := Stored([]));
    forall pid
      ensures History(r, pid) == []
    {
    }
    r
  }
}

=== FILE: text.dfy ===
/**
 * The string primitives the portal relies on: `toLowerCase` (restricted to
 * ASCII letters), `includes`, `trim`, and decimal rendering of counts.
 */
module Text {

  predicate IsUpper(c: char) {
    'A' <= c <= 'Z'
  }

  /** `toLowerCase` on one character; only ASCII letters are folded. */
  function LowerChar(c: char): (r: char)
    ensures !IsUpper(r)
    ensures IsUpper(c) ==> r as int == c as int + 32
    ensures !IsUpper(c) ==> r == c
  {
    if IsUpper(c) then (c as int + 32) as char else c
  }

  /** `toLowerCase` on a string, character by character. */
  function Lower(s: string): (r: string)
    ensures |r| == |s|
    ensures forall i :: 0 <= i < |s| ==> r[i] == LowerChar(s[i])
  {
    seq(|s|, i requires 0 <= i < |s| => LowerChar(s[i]))
  }

  /** A string with no upper-case ASCII letter. */
  ghost predicate IsLowerCase(s: string) {
    forall i :: 0 <= i < |s| ==> !IsUpper(s[i])
  }

  /** Lower-casing yields a lower-case string, and lower-case strings are left alone. */
  lemma LowerFacts(s: string)
    ensures IsLowerCase(Lower(s))
    ensures IsLowerCase(s) ==> Lower(s) == s
    ensures Lower(Lower(s)) == Lower(s)
  {
  }

  /** `s` begins with `w`. */
  predicate StartsWith(s: string, w: string) {
    |w| <= |s| && s[..|w|] == w
  }

  /** JavaScript `s.includes(w)`: `w` occurs somewhere in `s` (the empty string occurs everywhere). */
  function Contains(s: string, w: string): bool
    decreases |s|
  {
    StartsWith(s, w) || (|s| > 0 && Contains(s[1..], w))
  }

  /** `w` occurs in `s` at position `i`. */
  ghost predicate OccursAt(s: string, w: string, i: int) {
    0 <= i && i + |w| <= |s| && s[i..i + |w|] == w
  }

  /** `Contains` finds exactly the occurrences described by `OccursAt`. */
  lemma {:induction false} ContainsIff(s: string, w: string)
    ensures Contains(s, w) <==> exists i :: OccursAt(s, w, i)
    decreases |s|
  {
    if exists i :: OccursAt(s, w, i) {
      var i :| OccursAt(s, w, i);
      if i == 0 {
        assert StartsWith(s, w);
      } else {
        ContainsIff(s[1..], w);
        assert s[1..][i - 1..i - 1 + |w|] == s[i..i + |w|];
        assert OccursAt(s[1..], w, i - 1);
      }
    }
    if StartsWith(s, w) {
      assert OccursAt(s, w, 0);
    } else if Contains(s, w) {
      ContainsIff(s[1..], w);
      var i :| OccursAt(s[1..], w, i);
      assert s[i + 1..i + 1 + |w|] == s[1..][i..i + |w|];
      assert OccursAt(s, w, i + 1);
    }
  }

  /** A non-empty word never occurs in the empty string. */
  lemma EmptyContainsNothing(w: string)
    requires |w| > 0
    ensures !Contains("", w)
  {
  }

  /** An occurrence in the lower-cased text of a lower-case word makes `includes` true. */
  lemma {:induction false} ContainsWitness(s: string, w: string, i: int)
    requires OccursAt(s, w, i)
    ensures Contains(s, w)
  {
    ContainsIff(s, w);
  }

  /**
   * The characters `trim` removes: ECMAScript WhiteSpace (tab, vertical tab,
   * form feed, no-break space, byte-order mark and the space separators)
   * and LineTerminator (line feed, carriage return, line and paragraph separators).
   */
  predicate IsWhitespace(c: char) {
    c == ' ' || c == '\t' || c == '\n' || c == '\r' || c == '\U{000B}' || c == '\U{000C}'
    || c == '\U{00A0}' || c == '\U{1680}' || ('\U{2000}' <= c <= '\U{200A}')
    || c == '\U{2028}' || c == '\U{2029}' || c == '\U{202F}' || c == '\U{205F}'
    || c == '\U{3000}' || c == '\U{FEFF}'
  }

  /** Number of whitespace characters at the start of `s`. */
  function LeadingBlanks(s: string): (k: nat)
    ensures k <= |s|
    ensures forall i :: 0 <= i < k ==> IsWhitespace(s[i])
    ensures k < |s| ==> !IsWhitespace(s[k])
    decreases |s|
  {
    if |s| > 0 && IsWhitespace(s[0]) then 1 + LeadingBlanks(s[1..]) else 0
  }

  /** Number of whitespace characters at the end of `s`. */
  function TrailingBlanks(s: string): (k: nat)
    ensures k <= |s|
    ensures forall i :: |s| - k <= i < |s| ==> IsWhitespace(s[i])
    ensures k < |s| ==> !IsWhitespace(s[|s| - 1 - k])
    decreases |s|
  {
    if |s| > 0 && IsWhitespace(s[|s| - 1]) then 1 + TrailingBlanks(s[..|s| - 1]) else 0
  }

  /** JavaScript `s.trim()`: `s` without its leading and trailing whitespace. */
  function Trim(s: string): (r: string)
    ensures |r| <= |s|
    ensures r == "" || (!IsWhitespace(r[0]) && !IsWhitespace(r[|r| - 1]))
  {
    var t := s[LeadingBlanks(s)..];
    t[..|t| - TrailingBlanks(t)]
  }

  /** JavaScript's `!s.trim()`: the string is empty or all whitespace. */
  predicate IsBlank(s: string) {
    Trim(s) == ""
  }

  /** A string is blank exactly when every character in it is whitespace. */
  lemma BlankIff(s: string)
    ensures IsBlank(s) <==> forall i :: 0 <= i < |s| ==> IsWhitespace(s[i])
  {
    var a := LeadingBlanks(s);
    var t := s[a..];
    var b := TrailingBlanks(t);
    if forall i :: 0 <= i < |s| ==> IsWhitespace(s[i]) {
      assert a == |s|;
    }
    if IsBlank(s) {
      assert |t| - b == 0;
    }
  }

  /**
   * Trimming removes exactly the surrounding whitespace: the result is the
   * slice `s[i..j]` with only whitespace before `i` and after `j`, and (by
   * `Trim`'s contract) a slice that neither starts nor ends with whitespace.
   */
  lemma TrimSlice(s: string)
    ensures exists i, j :: 0 <= i <= j <= |s| && Trim(s) == s[i..j]
              && (forall k :: 0 <= k < i ==> IsWhitespace(s[k]))
              && (forall k :: j <= k < |s| ==> IsWhitespace(s[k]))
  {
    var a := LeadingBlanks(s);
    var t := s[a..];
    var b := TrailingBlanks(t);
    assert Trim(s) == s[a..|s| - b];
  }

  function DigitChar(d: nat): (c: char)
    requires d < 10
  {
    "0123456789"[d]
  }

  /** Decimal rendering of a count, as JavaScript template literals print integers. */
  function NatToString(n: nat): (r: string)
    ensures |r| >= 1
    ensures forall i :: 0 <= i < |r| ==> '0' <= r[i] <= '9'
    decreases n
  {
    if n < 10 then [DigitChar(n)] else NatToString(n / 10) + [DigitChar(n % 10)]
  }
}

=== FILE: wrappers.dfy ===
/** Optional values: the model's counterpart of `undefined` / `null` results. */
module Wrappers {

  datatype Option<+T> = None | Some(value: T)
}
